=== FILE: README.md ===
# Hospital listing query builder (vacQ)

A Dafny model of the hospital listing handler `getHospitals` of the vacQ
vaccination-booking API. The handler turns the URL query parameters of
`GET /hospitals` into a MongoDB query and shapes the store's answer into the
body `{ success, count, pagination, data }`:

- **Filter.** The handler copies the query and deletes the four reserved
  parameters `select`, `sort`, `page` and `limit` (`ReservedKeys`). It
  serialises the rest and puts a `$` in front of every standalone `gt`,
  `gte`, `lt`, `lte` and `in` word (`OperatorRewrite`). This follows the
  regular expression `\b(gt|gte|lt|lte|in)\b` with the global flag.
- **Projection and order.** `select` and `sort` turn their commas into
  spaces (`FieldLists`). When no sort is given, `createdAt` is hidden
  instead.
- **Paging.** `page` and `limit` are read with `parseInt(x, 10)`
  (`IntParse`). A result that is NaN or zero falls back to 1 and 25. The
  page window is `[(page - 1) * limit, page * limit)` (`Pagination`).
- **Response.** The store's rows are skipped and limited. A `next` link
  appears when `page * limit` is below the count of the whole collection. A
  `prev` link appears when `(page - 1) * limit` is above zero (`Hospitals`).

The store is abstracted as a `StoreReply` value. It holds either the count of
every hospital together with the records that the filtered, projected and
sorted query matches, in order and before paging, or the error the store
raised. Serialising the filter object (`JSON.stringify`) is a parameter of the
model.

The operator rewrite is modelled twice:

- `ReplaceFrom` is the scan the regular-expression engine performs. It tries
  the alternatives in their written order at each position, checks both word
  boundaries, and resumes after a match.
- `RewriteTokens` is a reference definition over the text's maximal runs of
  word and non-word characters.

`RewriteIsTokenwise` proves that the two agree on every string.

Four behaviours of the code are worth knowing:

- `total` is `Hospital.countDocuments()` with no filter, so it is the size
  of the whole collection, not the number of matches
  (`NextCountsWholeCollection`).
- `page` and `limit` are not forced to be at least 1. Negative values are
  kept, and a negative first index makes the store refuse the query
  (`NegativePageRefused`).
- The filter is built by rewriting the serialised text, so operator words in
  values are rewritten too (`ValueWordRewritten`).
- The query parser lets bracket syntax set any key, `toString` included. For
  `?page[toString]=x`, `parseInt` cannot turn the object into a string, and
  the handler throws before its `try` (`ToStringOverrideRejected`).

## Model

| member | source | states |
|---|---|---|
| QueryValues.Lookup | vacQ/controller/hospitals.js:28 | reading a parameter gives a value exactly when the name is present, and that value is the parameter's |
| ReservedKeys.DeleteAll | vacQ/controller/hospitals.js:19-21 | deleting the names one after another leaves exactly the keys not among them, with their values unchanged |
| ReservedKeys.RemoveReserved | vacQ/controller/hospitals.js:18-21 | the filter holds no reserved key, keeps every other key of the query with its value, and adds no key |
| ReservedKeys.RemoveReservedIsRestriction | vacQ/controller/hospitals.js:18-21 | the filter is exactly the query restricted to the non-reserved names |
| ReservedKeys.RemoveReservedIdempotent | vacQ/controller/hospitals.js:18-21 | removing the reserved keys from a filter changes nothing |
| ReservedKeys.RemoveReservedExample | vacQ/controller/hospitals.js:18-21 | `name`, `page` and `sort` leave a filter on `name` alone |
| ReservedKeys.ReservedNamesFacts | vacQ/controller/hospitals.js:19 | `select`, `sort`, `page` and `limit` are reserved names |
| OperatorRewrite.MatchAt | vacQ/controller/hospitals.js:24 | a match of the pattern at a position ends after it and within the text (MatchAtCharacterised says where) |
| OperatorRewrite.TryAlternatives | vacQ/controller/hospitals.js:24 | a match of the alternation ends after its start and within the text |
| OperatorRewrite.MatchAtCharacterised | vacQ/controller/hospitals.js:24 | the pattern matches at a position exactly when a maximal word run starts there and equals one of the five operators; the match spans that run |
| OperatorRewrite.TokensAreMaximalRuns | vacQ/controller/hospitals.js:24 | the reference runs are non-empty, each of one kind, neighbours of different kinds, and join back to the text |
| OperatorRewrite.CopyWithoutMatches | vacQ/controller/hospitals.js:24 | where the pattern matches nowhere in a stretch, the scan `ReplaceFrom` copies that stretch unchanged |
| OperatorRewrite.ReplaceAtMatch | vacQ/controller/hospitals.js:24 | where the pattern matches, the scan `ReplaceFrom` emits `$`, the matched run, and resumes after the run |
| OperatorRewrite.ReplaceOneRun | vacQ/controller/hospitals.js:24 | from the start of any run, the scan `ReplaceFrom` emits that run rewritten and resumes after it |
| OperatorRewrite.ReplaceFromIsTokenwise | vacQ/controller/hospitals.js:24 | from any run start, the scan `ReplaceFrom` equals rewriting the remaining runs one by one |
| OperatorRewrite.RewriteIsTokenwise | vacQ/controller/hospitals.js:24 | `RewriteOperators`, the global `replace` call, equals rewriting run by run, with one `$` before each operator run and every other run kept |
| OperatorRewrite.RewriteLength | vacQ/controller/hospitals.js:24 | the rewritten text is longer than the original by exactly the number of operator runs |
| OperatorRewrite.RewriteWithoutOperators | vacQ/controller/hospitals.js:24 | text with no standalone operator word is left unchanged |
| OperatorRewrite.BracketOperatorRewritten | vacQ/controller/hospitals.js:23-24 | the serialised `field[gt]=bound` filter reaches the store with `$gt`, for any single-word field and bound that are not operators |
| OperatorRewrite.ValueWordRewritten | vacQ/controller/hospitals.js:24 | a value `in-patient` also gains a `$`, since the rewrite does not tell keys from values |
| OperatorRewrite.ContainingWordsKept | vacQ/controller/hospitals.js:24 | `main`, `gtx` and `index` contain operator letters but are not rewritten |
| FieldLists.Split | vacQ/controller/hospitals.js:29 | splitting gives at least one piece, and no piece contains the separator |
| FieldLists.SplitJoinReplaces | vacQ/controller/hospitals.js:29 | splitting on one character and joining with another replaces each occurrence and keeps every other character in place |
| FieldLists.SplitJoinRoundTrip | vacQ/controller/hospitals.js:29 | joining the pieces with the separator they were split on restores the text |
| FieldLists.SplitWithoutSeparator | vacQ/controller/hospitals.js:29 | text without the separator splits into itself alone |
| FieldLists.JoinSplitRoundTrip | vacQ/controller/hospitals.js:29 | `Join` is the inverse of `Split`: pieces free of the separator, joined with it, split back into the same pieces |
| FieldLists.SplitCount | vacQ/controller/hospitals.js:29 | there is one more piece than there are separators |
| FieldLists.SpaceSeparated | vacQ/controller/hospitals.js:29-34 | the field list keeps its length, has no comma left, and has a space exactly where the parameter had a comma |
| FieldLists.SortAndFieldsExample | vacQ/controller/hospitals.js:29-34 | `name,age` becomes `name age`, and `-age` is kept as it is |
| IntParse.TrimStart | vacQ/controller/hospitals.js:40-41 | the trimmed text is a suffix of the input, everything cut off is white space, and it does not start with white space |
| IntParse.DigitPrefix | vacQ/controller/hospitals.js:40-41 | the digits read are a prefix of the text, all decimal, and not followed by another digit |
| IntParse.ParseInt | vacQ/controller/hospitals.js:40-41 | parsing gives NaN exactly when no digit follows the leading white space and optional sign |
| IntParse.ParseIntText | vacQ/controller/hospitals.js:40-41 | the decimal text of any integer, followed by anything that does not start with a digit, parses back to that integer |
| IntParse.ParseIntOfText | vacQ/controller/hospitals.js:40-41 | the decimal text of any integer, on its own, parses back to that integer |
| IntParse.NatTextValue | vacQ/controller/hospitals.js:40-41 | `DigitsValue`, the value `parseInt` gives a digit string, undoes writing a natural number in decimal |
| IntParse.ParseSignedDigits | vacQ/controller/hospitals.js:40-41 | white space, an optional `+` or `-` (`Unsigned`), any digits and a non-digit parse to the digits' value `DigitsValue`, negated after `-` (`WithSign`); leading zeros are allowed |
| IntParse.ParsePlusDigits | vacQ/controller/hospitals.js:40-41 | a `+`, digits and a non-digit parse to the digits' value |
| IntParse.PaddedPlusExample | vacQ/controller/hospitals.js:41 | `+010` parses to 10 |
| IntParse.ParseIntSkipsWhiteSpace | vacQ/controller/hospitals.js:40-41 | leading white space does not change the parsed result |
| IntParse.ParseIntNoDigits | vacQ/controller/hospitals.js:40-41 | text with no leading white space whose first character after an optional sign is not a digit parses to NaN |
| Pagination.OrDefault | vacQ/controller/hospitals.js:40-41 | a parsed number other than zero is used; NaN and zero give the fallback |
| Pagination.OrDefaultNonZero | vacQ/controller/hospitals.js:40-41 | with a non-zero fallback the page or limit is never zero, and defaulting it again keeps it |
| Pagination.WindowWidth | vacQ/controller/hospitals.js:42-43 | between `StartIndex` and `EndIndex` a page spans exactly `limit` indices, and the next page starts where this one ends |
| Pagination.FirstPageStartsAtZero | vacQ/controller/hospitals.js:42 | `StartIndex` of page 1 is index 0: page 1 starts at index 0 |
| Pagination.StartIndexNonNegative | vacQ/controller/hospitals.js:42 | pages from 1 on, with a non-negative limit, start at index 0 or later |
| Pagination.StartPositiveIffLaterPage | vacQ/controller/hospitals.js:42 | with a positive limit, the first index is positive exactly when the page is after page 1 |
| Pagination.Describe | vacQ/controller/hospitals.js:51-65 | `next` is present exactly when `page * limit < total` and points to page + 1; `prev` is present exactly when `(page - 1) * limit > 0` and points to page - 1; both keep the limit |
| Pagination.NoPrevOnFirstPage | vacQ/controller/hospitals.js:60-65 | page 1 never links back |
| Pagination.NextThenPrev | vacQ/controller/hospitals.js:53-65 | following `next` from page 1 or later, with a positive limit, lands on a page whose `prev` points back |
| Pagination.PrevThenNext | vacQ/controller/hospitals.js:53-65 | following `prev` from a page that starts before `total` lands on a page whose `next` points back |
| Pagination.ThirtyRecordsPageTwo | vacQ/controller/hospitals.js:42-65 | with 30 records, page 2 of 10 spans indices 10 to 20 and links to pages 3 and 1 |
| Hospitals.FieldParameter | vacQ/controller/hospitals.js:28-38 | `select` or `sort` throws exactly when it is an array or object, with the `split is not a function` error; otherwise it yields a field list exactly when truthy, which is the parameter with commas turned into spaces |
| QueryValues.TruthyCases | vacQ/controller/hospitals.js:28-38 | `Truthy`, the test of `if (req.query.select)` and `if (req.query.sort)`: an absent parameter and the empty string are falsy, other strings truthy, and every array or object truthy, even an empty array whose string is empty |
| QueryValues.ToJsString | vacQ/controller/hospitals.js:40-41 | the string `parseInt` takes of a parameter: the conversion throws exactly when the value is an object with its own `toString` or an array holding such a value anywhere, and a string converts to itself |
| QueryValues.JoinWithCommas | vacQ/controller/hospitals.js:40-41 | joining an array's elements throws exactly when one of the elements' conversions throws |
| QueryValues.ConversionExamples | vacQ/controller/hospitals.js:40-41 | an object with a `toString` key throws on conversion, alone or inside an array; one without prints as `[object Object]` |
| QueryValues.JoinWithCommasIsJoin | vacQ/controller/hospitals.js:40-41 | `ToJsString` of an array whose elements all convert, which `parseInt` applies to a repeated parameter, is `Join` of its elements' strings with `,` |
| Hospitals.ReadsAs | vacQ/controller/hospitals.js:40-41 | a page or limit given as text is `parseInt` of that text, or the fallback when that is NaN or zero |
| Hospitals.ReadsIntText | vacQ/controller/hospitals.js:40-41 | a page or limit written as the decimal text of a number reads as that number, or as the fallback when it is zero |
| Hospitals.RepeatedNumberReadsFirst | vacQ/controller/hospitals.js:40 | without the parameter-pollution middleware, a repeated `page` arrives as an array, reads as `first,second`, and so parses to the first value |
| Hospitals.NumberParameter | vacQ/controller/hospitals.js:40-41 | reading a page or limit throws the conversion error exactly when it is present and its string conversion throws; otherwise it never comes out zero, and an absent one is its default |
| Hospitals.SelectAndSort | vacQ/controller/hospitals.js:28-38 | `select` is read before `sort`: an array or object in `select` throws its `split` error whatever `sort` holds, and one in `sort` throws only after `select` passed |
| Hospitals.PageAndLimit | vacQ/controller/hospitals.js:40-41 | the page and then the limit are read, and the pair fails with the conversion error exactly when either cannot be converted |
| Hospitals.PlanFind | vacQ/controller/hospitals.js:17-43 | the query fails exactly when `select` or `sort` is not a string, or `page` or `limit` cannot be converted to a string, with the error of the first of these lines that throws. Otherwise the filter is the rewritten serialisation of the query without reserved keys; projection and order are present exactly when their parameters are truthy and are their space-separated forms; `createdAt` is hidden exactly when there is no truthy sort; page and limit are the parsed-or-default numbers; skip is `(page - 1) * limit` |
| Hospitals.Window | vacQ/controller/hospitals.js:47-49 | skip and limit are refused exactly when the skip is negative or above the signed 64-bit maximum, or the limit lies outside signed 64 bits. Otherwise they return the consecutive rows from `skip` on, as many as the limit's absolute value allows (all of them for limit 0) |
| Hospitals.GetHospitals | vacQ/controller/hospitals.js:16-79 | the handler rejects, with the first error thrown, exactly when `select` or `sort` is not a string or `page` or `limit` cannot be converted to a string; it answers 400 with the store's message when the store fails, and a served body counts exactly the records it carries |
| Hospitals.ListedResponse | vacQ/controller/hospitals.js:45-72 | when the store takes the first index and the limit, the request is served: at most the limit's absolute value of records, the consecutive matches from `(page - 1) * limit`, with `next` iff `page * limit < total` and `prev` iff `(page - 1) * limit > 0` |
| Hospitals.ListedShape | vacQ/controller/hospitals.js:45-72 | the served body is the window of the matches together with the descriptor of the page, limit and total |
| Hospitals.RefusedWindowIsBadRequest | vacQ/controller/hospitals.js:45-78 | a first index below zero or beyond 64 bits, or a limit beyond 64 bits, makes the store refuse the query, and the handler answers 400 |
| Hospitals.PlainListing | vacQ/controller/hospitals.js:17-72 | a query without reserved parameters filters on all of them and returns the first 25 matches, with `createdAt` hidden and no `prev` |
| Hospitals.NextIffMoreMatches | vacQ/controller/hospitals.js:46-58 | when the count equals the matches, `next` appears exactly when matches remain after the page |
| Hospitals.FullPageArithmetic | vacQ/controller/hospitals.js:42-53 | with a positive limit, `page * limit < n` exactly when the window leaves records after it |
| Hospitals.NextCountsWholeCollection | vacQ/controller/hospitals.js:46-58 | with 30 hospitals of which 5 match, page 1 of 10 links to a page 2 that holds nothing |
| Hospitals.PageTwoOfTen | vacQ/controller/hospitals.js:42-72 | any query that settles on page 2 of 10, over 30 records, serves records 10 to 19 with links to pages 3 and 1 |
| Hospitals.SecondPageOfTen | vacQ/controller/hospitals.js:40-72 | `page=2&limit=10` over 30 records serves records 10 to 19, with links to pages 3 and 1 |
| Hospitals.FalsyNumbersDefault | vacQ/controller/hospitals.js:40-41 | `page=0&limit=abc` settle on page 1 and limit 25 |
| Hospitals.NegativePageRefused | vacQ/controller/hospitals.js:40-78 | `page=-1` is kept as -1 with limit 25, and the store refuses the query, so the handler answers 400 |
| Hospitals.HugePageRefused | vacQ/controller/hospitals.js:40-78 | `page=10000000000&limit=1000000000` puts the first index past the 64-bit maximum, and the handler answers 400 |
| Hospitals.ToStringOverrideRejected | vacQ/controller/hospitals.js:40-41 | `page[toString]=x`, or a limit array holding such an object, makes the handler throw the conversion error before its `try`, so no response is sent |
| Hospitals.ProjectionAndSortExample | vacQ/controller/hospitals.js:17-43 | `age[gt]=18&select=name,age&sort=-age`, whatever else the filter holds, keeps `age` in the filter and drops `select` and `sort`, projects `name age`, orders by `-age`, does not hide `createdAt`, and starts at index 0 |

## Left out

- The other handlers of the controller are not part of this model: `getVacCenters` and the hospital CRUD handlers (vacQ/controller/hospitals.js:4-14, 81-162). Only the listing handler is modelled.
- `JSON.stringify` of the filter and `JSON.parse` of the rewritten text are not modelled. Serialisation is a parameter, and the rewritten text is what the store receives.
- The store's filtering, projection, sorting and counting are abstracted into the `StoreReply` value. `populate('appointments')` is left out, since it does not change which or how many records are returned.
- Hospitals.Window: follows MongoDB's find command as far as the model's integers reach. A negative skip, and a skip or limit beyond signed 64 bits, are refused. A zero limit means no limit, and a negative limit returns at most its absolute value. Batch sizes and cursor paging are not modelled.
- Pagination.StartIndex: the page arithmetic uses unbounded integers, not the source's double-precision numbers. Products above 2^53 are exact here but rounded in the source. A limit whose value is about 1.8e308 or more parses to Infinity in the source, and `(1 - 1) * Infinity` is NaN; the model computes a finite index instead.
- IntParse.ParseInt: integers are unbounded. The double-precision rounding of very long digit strings is not modelled.
- Hospitals.GetHospitals: for `select` or `sort` given as an array or object, and for `page` or `limit` whose string conversion throws, a `TypeError` is thrown before the `try`. The outcome is modelled as `Rejected` carrying the error's `message`, with no response. Behind the parameter-pollution middleware only the object forms of these parameters reach the throws, since top-level arrays are reduced to their last value. The process-wide `unhandledRejection` handler that then shuts the server down (vacQ/server.js:48-53) is not modelled.
- HTTP status codes, `async`/`await` scheduling, and the request middleware are left out. The middleware is query sanitisation, parameter-pollution protection, rate limiting and CORS (vacQ/server.js:26-35). The model starts from the query parser's output. The parameter-pollution middleware (vacQ/server.js:35) would reduce each top-level array to its last value, so behind it `?page=3&page=5` reads 5 and `?select=a&select=b` projects `b`.

=== FILE: field_lists.dfy ===
/**
  The projection and sort strings: a comma-separated parameter such as
  `name,-age` is turned into the space-separated form `name -age` by
  `split(',')` followed by `join(' ')`.
*/
module FieldLists {

  /** `s.split(sep)`: the pieces between separators, empty pieces included; never empty itself. */
  function Split(s: string, sep: char): (parts: seq<string>)
    ensures |parts| >= 1
    ensures forall i :: 0 <= i < |parts| ==> sep !in parts[i]
    decreases |s|
  {
    if |s| == 0 then [""]
    else
      var rest := Split(s[1..], sep);
      if s[0] == sep then [""] + rest
      else [[s[0]] + rest[0]] + rest[1..]
  }

  /** `parts.join(sep)`. */
  function Join(parts: seq<string>, sep: char): string
    requires |parts| >= 1
  {
    if |parts| == 1 then parts[0] else parts[0] + [sep] + Join(parts[1..], sep)
  }

  /** How many times `c` occurs in `s`. */
  function Occurrences(s: string, c: char): nat {
    if |s| == 0 then 0 else (if s[0] == c then 1 else 0) + Occurrences(s[1..], c)
  }

  /** `s` with every `from` replaced by `to`, position by position. */
  function ReplaceChar(s: string, from: char, to: char): string {
    seq(|s|, i requires 0 <= i < |s| => if s[i] == from then to else s[i])
  }

  lemma JoinCons(p: string, parts: seq<string>, sep: char)
    requires |parts| >= 1
    ensures Join([p] + parts, sep) == p + [sep] + Join(parts, sep)
  {
    assert ([p] + parts)[1..] == parts;
  }

  lemma JoinExtendFirst(c: char, parts: seq<string>, sep: char)
    requires |parts| >= 1
    ensures Join([[c] + parts[0]] + parts[1..], sep) == [c] + Join(parts, sep)
  {
    if |parts| > 1 {
      JoinCons([c] + parts[0], parts[1..], sep);
    }
  }

  /** Splitting on a separator and joining with another replaces each separator by the other. */
  lemma {:induction false} SplitJoinReplaces(s: string, sep: char, glue: char)
    ensures Join(Split(s, sep), glue) == ReplaceChar(s, sep, glue)
    decreases |s|
  {
    if |s| > 0 {
      var rest := Split(s[1..], sep);
      SplitJoinReplaces(s[1..], sep, glue);
      assert ReplaceChar(s, sep, glue) == [if s[0] == sep then glue else s[0]] + ReplaceChar(s[1..], sep, glue);
      if s[0] == sep {
        JoinCons("", rest, sep);
        JoinCons("", rest, glue);
      } else {
        JoinExtendFirst(s[0], rest, glue);
      }
    }
  }

  /** Joining the pieces back with the same separator restores the text. */
  lemma SplitJoinRoundTrip(s: string, sep: char)
    ensures Join(Split(s, sep), sep) == s
  {
    SplitJoinReplaces(s, sep, sep);
    assert ReplaceChar(s, sep, sep) == s;
  }

  /** Text without the separator splits into itself alone. */
  lemma {:induction false} SplitWithoutSeparator(p: string, sep: char)
    requires sep !in p
    ensures Split(p, sep) == [p]
    decreases |p|
  {
    if |p| > 0 {
      assert sep !in p[1..] by {
        forall i | 0 <= i < |p[1..]| ensures p[1..][i] != sep { assert p[1..][i] == p[i + 1]; }
      }
      SplitWithoutSeparator(p[1..], sep);
      assert [p[0]] + p[1..] == p;
    }
  }

  /** A piece free of the separator, then the separator, splits off as the first piece. */
  lemma {:induction false} SplitAfterPiece(p: string, t: string, sep: char)
    requires sep !in p
    ensures Split(p + [sep] + t, sep) == [p] + Split(t, sep)
    decreases |p|
  {
    var s := p + [sep] + t;
    if |p| == 0 {
      assert s == [sep] + t && s[1..] == t;
    } else {
      assert s[0] == p[0] && s[1..] == p[1..] + [sep] + t;
      assert sep !in p[1..] by {
        forall i | 0 <= i < |p[1..]| ensures p[1..][i] != sep { assert p[1..][i] == p[i + 1]; }
      }
      SplitAfterPiece(p[1..], t, sep);
      assert [p[0]] + p[1..] == p;
    }
  }

  /** Pieces free of the separator, joined with it, split back into the same pieces. */
  lemma {:induction false} JoinSplitRoundTrip(parts: seq<string>, sep: char)
    requires |parts| >= 1
    requires forall i :: 0 <= i < |parts| ==> sep !in parts[i]
    ensures Split(Join(parts, sep), sep) == parts
    decreases |parts|
  {
    if |parts| == 1 {
      SplitWithoutSeparator(parts[0], sep);
    } else {
      JoinSplitRoundTrip(parts[1..], sep);
      SplitAfterPiece(parts[0], Join(parts[1..], sep), sep);
      assert [parts[0]] + parts[1..] == parts;
    }
  }

  /** There is one more piece than there are separators. */
  lemma {:induction false} SplitCount(s: string, sep: char)
    ensures |Split(s, sep)| == Occurrences(s, sep) + 1
    decreases |s|
  {
    if |s| > 0 {
      SplitCount(s[1..], sep);
    }
  }

  /**
    `list.split(',').join(' ')`: the parameter with every comma turned into a
    space and every other character kept where it was.
  */
  function SpaceSeparated(list: string): (r: string)
    ensures |r| == |list|
    ensures ',' !in r
    ensures forall i :: 0 <= i < |list| ==> r[i] == (if list[i] == ',' then ' ' else list[i])
  {
    SplitJoinReplaces(list, ',', ' ');
    Join(Split(list, ','), ' ')
  }

  /** `select=name,age` projects `name age`; `sort=-age` has no comma and passes through. */
  lemma SortAndFieldsExample()
    ensures SpaceSeparated("name,age") == "name age"
    ensures SpaceSeparated("-age") == "-age"
  {
    var fields := SpaceSeparated("name,age");
    assert fields == "name age";
    var order := SpaceSeparated("-age");
    assert order == "-age";
  }
}

=== FILE: hospitals.dfy ===
/**
  The hospital listing handler: from the request's query parameters to the
  store request it builds, and from the store's answer to the response body
  `{ success, count, pagination, data }`.

  The store is abstracted: `StoreReply` carries the count of the whole
  hospital collection and the records the filtered, projected and sorted
  query matches, in order, before paging; or the error the store raised.
  Serialising the filter object is left to the `stringify` parameter.
*/
module Hospitals {
  import opened Optional
  import opened QueryValues
  import opened ReservedKeys
  import opened OperatorRewrite
  import opened FieldLists
  import opened IntParse
  import opened Pagination

  /** Everything the handler hands to the store for one listing request. */
  datatype FindRequest = FindRequest(
    filter: string,             // the filter text after the operator rewrite
    projection: Option<string>, // `query.select(fields)`
    sortBy: Option<string>,     // `query.sort(sortBy)`
    hideCreatedAt: bool,        // `query.select('-createdAt')`
    page: int,
    limit: int,
    skip: int)                  // `query.skip(startIndex)`, followed by `.limit(limit)`

  /** A parameter that is present but is not a string: an array or a nested object. */
  predicate NotText(v: Option<QueryValue>) {
    v.Some? && !v.value.Text?
  }

  /**
    `select` or `sort`: unused when falsy, otherwise `split(',').join(' ')`.
    Arrays and objects have no `split`, so reading them throws.
  */
  function FieldParameter(v: Option<QueryValue>, name: string): (r: Result<Option<string>>)
    ensures r.Err? <==> NotText(v)
    ensures r.Ok? ==> (r.value.Some? <==> Truthy(v))
    ensures r.Ok? && r.value.Some? ==>
      |r.value.value| == |v.value.text| && ',' !in r.value.value
    ensures r.Ok? && r.value.Some? ==> r.value.value == SpaceSeparated(v.value.text)
    ensures r.Err? ==> r.message == SplitError(name)
  {
    match v
    case None => Ok(None)
    case Some(Text(s)) => if s == "" then Ok(None) else Ok(Some(SpaceSeparated(s)))
    case Some(_) => Err(SplitError(name))
  }

  /** The `message` of the error calling `split` on `req.query[name]` throws when it is not a string. */
  function SplitError(name: string): string {
    "req.query." + name + ".split is not a function"
  }

  /** A number parameter whose string can be taken: absent, or converting without a throw. */
  predicate Converts(q: Query, name: string) {
    name !in q || !ConversionThrows(q[name])
  }

  /**
    `parseInt(req.query[name], 10) || fallback`; an absent parameter parses
    as NaN, and one whose `String()` throws makes the line throw.
  */
  function NumberParameter(q: Query, name: string, fallback: int): (r: Result<int>)
    ensures r.Err? <==> !Converts(q, name)
    ensures r.Err? ==> r.message == ConversionError
    ensures r.Ok? && fallback != 0 ==> r.value != 0
    ensures name !in q ==> r == Ok(fallback)
  {
    match Lookup(q, name)
    case None => Ok(OrDefault(None, fallback))
    case Some(v) =>
      match ToJsString(v)
      case Err(e) => Err(e)
      case Ok(s) => Ok(OrDefault(ParseInt(s), fallback))
  }

  /**
    The lines before the `try` run through: `select` and `sort` are absent
    or strings, and `page` and `limit` convert to strings.
  */
  predicate Plans(q: Query) {
    && !NotText(Lookup(q, "select")) && !NotText(Lookup(q, "sort"))
    && Converts(q, "page") && Converts(q, "limit")
  }

  /** The error the lines before the `try` throw first: `select` is read first, then `sort`, then `page` and `limit`. */
  function FirstThrown(q: Query): (e: string)
    requires !Plans(q)
    ensures NotText(Lookup(q, "select")) ==> e == SplitError("select")
    ensures !NotText(Lookup(q, "select")) && NotText(Lookup(q, "sort")) ==> e == SplitError("sort")
    ensures !NotText(Lookup(q, "select")) && !NotText(Lookup(q, "sort")) ==> e == ConversionError
  {
    if NotText(Lookup(q, "select")) then SplitError("select")
    else if NotText(Lookup(q, "sort")) then SplitError("sort")
    else ConversionError
  }

  /** The projection, then the sort order, as the handler reads them. */
  function SelectAndSort(q: Query): (r: Result<(Option<string>, Option<string>)>)
    ensures r.Err? <==> NotText(Lookup(q, "select")) || NotText(Lookup(q, "sort"))
    ensures NotText(Lookup(q, "select")) ==> r == Err(SplitError("select"))
    ensures !NotText(Lookup(q, "select")) && NotText(Lookup(q, "sort")) ==> r == Err(SplitError("sort"))
    ensures r.Ok? ==> FieldParameter(Lookup(q, "select"), "select") == Ok(r.value.0)
    ensures r.Ok? ==> FieldParameter(Lookup(q, "sort"), "sort") == Ok(r.value.1)
  {
    match FieldParameter(Lookup(q, "select"), "select")
    case Err(e) => Err(e)
    case Ok(projection) =>
      match FieldParameter(Lookup(q, "sort"), "sort")
      case Err(e) => Err(e)
      case Ok(sortBy) => Ok((projection, sortBy))
  }

  /** The page, then the limit, as the handler reads them. */
  function PageAndLimit(q: Query): (r: Result<(int, int)>)
    ensures r.Err? <==> !Converts(q, "page") || !Converts(q, "limit")
    ensures r.Err? ==> r.message == ConversionError
    ensures r.Ok? ==> NumberParameter(q, "page", DefaultPage) == Ok(r.value.0)
    ensures r.Ok? ==> NumberParameter(q, "limit", DefaultLimit) == Ok(r.value.1)
  {
    match NumberParameter(q, "page", DefaultPage)
    case Err(e) => Err(e)
    case Ok(page) =>
      match NumberParameter(q, "limit", DefaultLimit)
      case Err(e) => Err(e)
      case Ok(limit) => Ok((page, limit))
  }

  /**
    Lines before the `try`: the filter, the projection and sort strings, the
    page and limit and the first index. Fails, with the thrown error, when
    `select` or `sort` is an array or an object, or when `page` or `limit`
    cannot be converted to a string.
  */
  function PlanFind(q: Query, stringify: Query -> string): (r: Result<FindRequest>)
    ensures r.Err? <==> !Plans(q)
    ensures r.Err? ==> r.message == FirstThrown(q)
    ensures r.Ok? ==> r.value.filter == RewriteOperators(stringify(RemoveReserved(q)))
    ensures r.Ok? ==> (r.value.projection.Some? <==> Truthy(Lookup(q, "select")))
    ensures r.Ok? ==> (r.value.sortBy.Some? <==> Truthy(Lookup(q, "sort")))
    ensures r.Ok? && r.value.projection.Some? ==> r.value.projection.value == SpaceSeparated(q["select"].text)
    ensures r.Ok? && r.value.sortBy.Some? ==> r.value.sortBy.value == SpaceSeparated(q["sort"].text)
    ensures r.Ok? ==> (r.value.hideCreatedAt <==> !Truthy(Lookup(q, "sort")))
    ensures r.Ok? ==> NumberParameter(q, "page", DefaultPage) == Ok(r.value.page)
    ensures r.Ok? ==> NumberParameter(q, "limit", DefaultLimit) == Ok(r.value.limit)
    ensures r.Ok? ==> r.value.page != 0 && r.value.limit != 0
    ensures r.Ok? ==> r.value.skip == (r.value.page - 1) * r.value.limit
  {
    var filter := RewriteOperators(stringify(RemoveReserved(q)));
    match SelectAndSort(q)
    case Err(e) => Err(e)
    case Ok((projection, sortBy)) =>
      match PageAndLimit(q)
      case Err(e) => Err(e)
      case Ok((page, limit)) =>
        Ok(FindRequest(filter, projection, sortBy, sortBy.None?, page, limit, StartIndex(page, limit)))
  }

  /** What the store answered: the count of every hospital and the matching records before paging, or an error. */
  datatype StoreReply<H> = Answered(total: int, matched: seq<H>) | StoreFailed(message: string)

  /** The handler's outcome. */
  datatype Response<H> =
    | Listed(count: nat, pagination: Descriptor, data: seq<H>) // 200, success: true
    | BadRequest(message: string)                              // 400, success: false
    | Rejected(message: string)                                // thrown before the try: no response; the error's `message`

  function Min(a: int, b: int): int {
    if a <= b then a else b
  }

  function Abs(n: int): nat {
    if n < 0 then -n else n
  }

  /** The largest signed 64-bit integer, the widest skip and limit the store's find command takes. */
  const MaxInt64: int := 0x7FFF_FFFF_FFFF_FFFF

  /** The skip and limit the store takes: a skip from 0 to the 64-bit maximum, a limit within signed 64 bits. */
  predicate StoreAccepts(skip: int, limit: int) {
    0 <= skip <= MaxInt64 && -MaxInt64 - 1 <= limit <= MaxInt64
  }

  /**
    `skip(skip).limit(limit)` over the matched records, as MongoDB's find
    command treats them: a negative skip and values beyond signed 64 bits are
    refused, a zero limit means no limit and a negative limit returns at most
    its absolute value.
  */
  function Window<H>(rows: seq<H>, skip: int, limit: int): (r: Result<seq<H>>)
    ensures r.Err? <==> !StoreAccepts(skip, limit)
    ensures r.Ok? && limit != 0 ==> |r.value| == Min(Abs(limit), if skip <= |rows| then |rows| - skip else 0)
    ensures r.Ok? && limit == 0 ==> |r.value| == (if skip <= |rows| then |rows| - skip else 0)
    ensures r.Ok? ==> forall i :: 0 <= i < |r.value| ==> r.value[i] == rows[skip + i]
  {
    if skip < 0 then Err("skip value must be non-negative")
    else if !StoreAccepts(skip, limit) then Err("skip or limit out of the 64-bit range")
    else
      var from := Min(skip, |rows|);
      var to := if limit == 0 then |rows| else Min(from + Abs(limit), |rows|);
      Ok(rows[from..to])
  }

  /** `getHospitals` from the request's query to its outcome. */
  function GetHospitals<H>(q: Query, stringify: Query -> string, reply: StoreReply<H>): (r: Response<H>)
    ensures r.Rejected? <==> !Plans(q)
    ensures r.Rejected? ==> r.message == FirstThrown(q)
    ensures !r.Rejected? && reply.StoreFailed? ==> r == BadRequest(reply.message)
    ensures r.Listed? ==> r.count == |r.data| && reply.Answered?
  {
    match PlanFind(q, stringify)
    case Err(e) => Rejected(e)
    case Ok(plan) =>
      match reply
      case StoreFailed(m) => BadRequest(m)
      case Answered(total, matched) =>
        match Window(matched, plan.skip, plan.limit)
        case Err(m) => BadRequest(m)
        case Ok(data) => Listed(|data|, Describe(plan.page, plan.limit, total), data)
  }

  /** The page and limit the handler settles on for `q`. */
  function PageOf(q: Query): int
    requires Converts(q, "page")
  {
    NumberParameter(q, "page", DefaultPage).value
  }

  function LimitOf(q: Query): int
    requires Converts(q, "limit")
  {
    NumberParameter(q, "limit", DefaultLimit).value
  }

  /**
    When the store takes the window, the request is served: the body counts the records it carries, the
    records are the consecutive matches from `(page - 1) * limit` on, no more
    than `limit` of them, and the links follow the page arithmetic against
    the count of the whole collection.
  */
  lemma ListedResponse<H>(q: Query, stringify: Query -> string, total: int, matched: seq<H>)
    requires Plans(q)
    requires StoreAccepts(StartIndex(PageOf(q), LimitOf(q)), LimitOf(q))
    ensures var r := GetHospitals(q, stringify, Answered(total, matched));
      && r.Listed?
      && r.count == |r.data|
      && |r.data| <= Abs(LimitOf(q))
      && (forall i :: 0 <= i < |r.data| ==> r.data[i] == matched[StartIndex(PageOf(q), LimitOf(q)) + i])
      && (r.pagination.next.Some? <==> EndIndex(PageOf(q), LimitOf(q)) < total)
      && (r.pagination.prev.Some? <==> StartIndex(PageOf(q), LimitOf(q)) > 0)
  {
    var w := ListedShape(q, stringify, total, matched);
  }

  /**
    A page number or limit that puts the first index below zero, or the
    first index or the limit beyond 64 bits, makes the store refuse the query.
  */
  lemma RefusedWindowIsBadRequest<H>(q: Query, stringify: Query -> string, total: int, matched: seq<H>)
    requires Plans(q)
    requires !StoreAccepts(StartIndex(PageOf(q), LimitOf(q)), LimitOf(q))
    ensures GetHospitals(q, stringify, Answered(total, matched)).BadRequest?
  {
  }

  /**
    A request with none of the four reserved parameters filters on all its
    parameters and returns the first 25 matches, hiding `createdAt`, with no
    link back.
  */
  lemma PlainListing<H>(q: Query, stringify: Query -> string, total: int, matched: seq<H>)
    requires forall k :: k in q ==> !IsReserved(k)
    ensures PlanFind(q, stringify)
      == Ok(FindRequest(RewriteOperators(stringify(q)), None, None, true, 1, 25, 0))
    ensures GetHospitals(q, stringify, Answered(total, matched))
      == Listed(Min(25, |matched|), Descriptor(if 25 < total then Some(PageLink(2, 25)) else None, None),
                matched[..Min(25, |matched|)])
  {
    assert RemoveReserved(q) == q;
    assert "select" !in q && "sort" !in q && "page" !in q && "limit" !in q by {
      ReservedNamesFacts("");
    }
  }

  /**
    When the store's count is the number of matches (no filter) and the limit
    is positive, `next` is present exactly when matches remain after this page.
  */
  lemma NextIffMoreMatches<H>(q: Query, stringify: Query -> string, matched: seq<H>)
    requires Plans(q)
    requires LimitOf(q) > 0 && StoreAccepts(StartIndex(PageOf(q), LimitOf(q)), LimitOf(q))
    ensures var r := GetHospitals(q, stringify, Answered(|matched|, matched));
      r.Listed? && (r.pagination.next.Some? <==> StartIndex(PageOf(q), LimitOf(q)) + |r.data| < |matched|)
  {
    var page, limit := PageOf(q), LimitOf(q);
    var w := ListedShape(q, stringify, |matched|, matched);
    FullPageArithmetic(page, limit, |matched|, |w|);
  }

  /** The served response, spelled out as the window and the descriptor it is built from. */
  lemma ListedShape<H>(q: Query, stringify: Query -> string, total: int, matched: seq<H>)
      returns (w: seq<H>)
    requires Plans(q)
    requires StoreAccepts(StartIndex(PageOf(q), LimitOf(q)), LimitOf(q))
    ensures Window(matched, StartIndex(PageOf(q), LimitOf(q)), LimitOf(q)) == Ok(w)
    ensures GetHospitals(q, stringify, Answered(total, matched))
      == Listed(|w|, Describe(PageOf(q), LimitOf(q), total), w)
  {
    w := Window(matched, StartIndex(PageOf(q), LimitOf(q)), LimitOf(q)).value;
  }

  /** For a positive limit, this page ends before `n` exactly when the window leaves records after it. */
  lemma FullPageArithmetic(page: int, limit: int, n: nat, w: nat)
    requires limit > 0 && StartIndex(page, limit) >= 0
    requires w == Min(limit, if StartIndex(page, limit) <= n then n - StartIndex(page, limit) else 0)
    ensures EndIndex(page, limit) < n <==> StartIndex(page, limit) + w < n
  {
    WindowWidth(page, limit);
  }

  /**
    The count behind `next` is that of the whole collection, not of the
    matches: with 30 hospitals of which the filter matches 5, page 1 of 10
    links to a page 2 that holds nothing.
  */
  lemma NextCountsWholeCollection<H>(q: Query, stringify: Query -> string, matched: seq<H>)
    requires Plans(q)
    requires PageOf(q) == 1 && LimitOf(q) == 10 && |matched| == 5
    ensures GetHospitals(q, stringify, Answered(30, matched)).pagination.next == Some(PageLink(2, 10))
    ensures Window(matched, StartIndex(2, 10), 10) == Ok([])
  {
  }

  /** A number parameter given as text reads as what `parseInt` makes of the text, or else the fallback. */
  lemma ReadsAs(q: Query, name: string, fallback: int, parsed: Option<int>)
    requires name in q && q[name].Text?
    requires ParseInt(q[name].text) == parsed
    ensures NumberParameter(q, name, fallback) == Ok(OrDefault(parsed, fallback))
  {
  }

  /** A number parameter written as the decimal text of `n` reads as `n`, unless `n` is zero. */
  lemma ReadsIntText(q: Query, name: string, fallback: int, n: int)
    requires name in q && q[name] == Text(IntText(n))
    ensures NumberParameter(q, name, fallback) == Ok(OrDefault(Some(n), fallback))
  {
    ParseIntOfText(q[name].text, n);
    ReadsAs(q, name, fallback, Some(n));
  }

  /** `?page=2&limit=10`, with any filter, asks for records 10 to 19, with links to pages 3 and 1 when 30 hospitals exist. */
  lemma SecondPageOfTen<H>(q: Query, stringify: Query -> string, matched: seq<H>)
    requires "page" in q && q["page"] == Text("2") && "limit" in q && q["limit"] == Text("10")
    requires "select" !in q && "sort" !in q
    requires |matched| == 30
    ensures PageOf(q) == 2 && LimitOf(q) == 10
    ensures GetHospitals(q, stringify, Answered(30, matched))
      == Listed(10, Descriptor(Some(PageLink(3, 10)), Some(PageLink(1, 10))), matched[10..20])
  {
    SecondPageNumbers(q);
    PageTwoOfTen(q, stringify, matched);
  }

  lemma SecondPageNumbers(q: Query)
    requires "page" in q && q["page"] == Text("2") && "limit" in q && q["limit"] == Text("10")
    ensures PageOf(q) == 2 && LimitOf(q) == 10
  {
    ReadsIntText(q, "page", DefaultPage, 2);
    ReadsIntText(q, "limit", DefaultLimit, 10);
  }

  /** Page 2 of 10 over 30 records, whatever query settles on those numbers. */
  lemma PageTwoOfTen<H>(q: Query, stringify: Query -> string, matched: seq<H>)
    requires Plans(q)
    requires PageOf(q) == 2 && LimitOf(q) == 10 && |matched| == 30
    ensures GetHospitals(q, stringify, Answered(30, matched))
      == Listed(10, Descriptor(Some(PageLink(3, 10)), Some(PageLink(1, 10))), matched[10..20])
  {
    var w := ListedShape(q, stringify, 30, matched);
    assert w == matched[10..20];
  }

  /** `?page=0&limit=abc`: zero and NaN are falsy, so both fall back to their defaults. */
  lemma FalsyNumbersDefault(q: Query)
    requires "page" in q && q["page"] == Text("0") && "limit" in q && q["limit"] == Text("abc")
    ensures PageOf(q) == 1 && LimitOf(q) == 25
  {
    ReadsIntText(q, "page", DefaultPage, 0);
    ParseIntNoDigits(q["limit"].text);
    ReadsAs(q, "limit", DefaultLimit, None);
  }

  /** `?page=-1` with any filter: negative numbers are kept, the first index falls below zero and the store refuses the query. */
  lemma NegativePageRefused<H>(q: Query, stringify: Query -> string, total: int, matched: seq<H>)
    requires "page" in q && q["page"] == Text("-1") && "limit" !in q
    requires "select" !in q && "sort" !in q
    ensures PageOf(q) == -1 && LimitOf(q) == 25
    ensures GetHospitals(q, stringify, Answered(total, matched)).BadRequest?
  {
    ReadsIntText(q, "page", DefaultPage, -1);
    assert StartIndex(-1, 25) < 0;
    RefusedWindowIsBadRequest(q, stringify, total, matched);
  }

  /**
    `?page[toString]=x` with any filter: `parseInt` cannot turn the object
    into a string, and the line throws before the `try`, so no response is
    sent. The same holds for a limit given as an array holding such an object.
  */
  lemma ToStringOverrideRejected<H>(q: Query, stringify: Query -> string, reply: StoreReply<H>, s: string)
    requires "select" !in q && "sort" !in q
    requires "page" in q && q["page"] == Object(map["toString" := Text(s)])
    ensures GetHospitals(q, stringify, reply) == Rejected(ConversionError)
    ensures GetHospitals(q["page" := Text("1")]["limit" := List([Text("5"), q["page"]])], stringify, reply)
      == Rejected(ConversionError)
  {
    ConversionExamples(s, map[]);
    var q' := q["page" := Text("1")]["limit" := List([Text("5"), q["page"]])];
    assert ConversionThrows(q'["limit"].items[1]);
    assert !Converts(q', "limit");
  }

  /**
    `?age[gt]=18&select=name,age&sort=-age`, with any other filter: the
    filter keeps `age` and drops `select` and `sort`, the projection is
    `name age`, the order is `-age`, and `createdAt` is not hidden because a
    sort was given.
  */
  lemma ProjectionAndSortExample(q: Query, stringify: Query -> string)
    requires "age" in q && q["age"] == Object(map["gt" := Text("18")])
    requires "select" in q && q["select"] == Text("name,age")
    requires "sort" in q && q["sort"] == Text("-age")
    requires "page" !in q && "limit" !in q
    ensures PlanFind(q, stringify) == Ok(FindRequest(
      RewriteOperators(stringify(RemoveReserved(q))), Some("name age"), Some("-age"), false, 1, 25, 0))
    ensures "age" in RemoveReserved(q) && RemoveReserved(q)["age"] == q["age"]
    ensures "select" !in RemoveReserved(q) && "sort" !in RemoveReserved(q)
  {
    SelectAndSortExample(q);
    assert PageAndLimit(q) == Ok((1, 25));
    PlanFromParts(q, stringify, Some("name age"), Some("-age"), 1, 25);
    ReservedNamesFacts("age");
  }

  /** The plan assembled from the parameters as the handler reads them. */
  lemma PlanFromParts(q: Query, stringify: Query -> string, projection: Option<string>, sortBy: Option<string>, page: int, limit: int)
    requires SelectAndSort(q) == Ok((projection, sortBy)) && PageAndLimit(q) == Ok((page, limit))
    ensures PlanFind(q, stringify) == Ok(FindRequest(RewriteOperators(stringify(RemoveReserved(q))),
      projection, sortBy, sortBy.None?, page, limit, StartIndex(page, limit)))
  {
  }

  lemma SelectAndSortExample(q: Query)
    requires "select" in q && q["select"] == Text("name,age")
    requires "sort" in q && q["sort"] == Text("-age")
    ensures SelectAndSort(q) == Ok((Some("name age"), Some("-age")))
  {
    SortAndFieldsExample();
    assert FieldParameter(Lookup(q, "select"), "select") == Ok(Some("name age"));
  }

  /**
    `?page=10000000000&limit=1000000000`, with any filter, puts the first index
    at 9999999999000000000, past the 64-bit maximum, so the store refuses it.
  */
  lemma HugePageRefused<H>(q: Query, stringify: Query -> string, total: int, matched: seq<H>)
    requires "page" in q && q["page"] == Text("10000000000")
    requires "limit" in q && q["limit"] == Text("1000000000")
    requires "select" !in q && "sort" !in q
    ensures PageOf(q) == 10000000000 && LimitOf(q) == 1000000000
    ensures GetHospitals(q, stringify, Answered(total, matched)).BadRequest?
  {
    HugePageNumbers(q);
    assert !StoreAccepts(StartIndex(10000000000, 1000000000), 1000000000);
    RefusedWindowIsBadRequest(q, stringify, total, matched);
  }

  lemma HugePageNumbers(q: Query)
    requires "page" in q && q["page"] == Text("10000000000")
    requires "limit" in q && q["limit"] == Text("1000000000")
    ensures PageOf(q) == 10000000000 && LimitOf(q) == 1000000000
  {
    var page, limit := q["page"].text, q["limit"].text;
    assert |page| == 11 && page[0] == '1' && forall i :: 1 <= i < |page| ==> page[i] == '0';
    assert |limit| == 10 && limit[0] == '1' && forall i :: 1 <= i < |limit| ==> limit[i] == '0';
    assert Pow10(10) == 10000000000 && Pow10(9) == 1000000000;
    ReadsPowerOfTen(q, "page", DefaultPage, 10, 10000000000);
    ReadsPowerOfTen(q, "limit", DefaultLimit, 9, 1000000000);
  }

  /** A parameter `1` followed by `k` zeros reads as ten to the `k`. */
  lemma ReadsPowerOfTen(q: Query, name: string, fallback: int, k: nat, n: int)
    requires name in q && q[name].Text?
    requires |q[name].text| == k + 1 && q[name].text[0] == '1'
    requires forall i :: 1 <= i < |q[name].text| ==> q[name].text[i] == '0'
    requires n == Pow10(k)
    ensures NumberParameter(q, name, fallback) == Ok(n)
  {
    OneAndZeros(q[name].text, k, n);
    ParseIntOfText(q[name].text, n);
    ReadsAs(q, name, fallback, Some(n));
  }

  /**
    Without the parameter-pollution middleware, a repeated parameter reaches
    the handler as an array, whose string joins the values with commas;
    `?page=3&page=5` reads `3,5`, which parses as 3. (The middleware, not
    part of this model, would keep only the last value.)
  */
  lemma RepeatedNumberReadsFirst(q: Query, n: int, other: string)
    requires n != 0
    requires q == map["page" := List([Text(IntText(n)), Text(other)])]
    ensures PageOf(q) == n
  {
    var items := [Text(IntText(n)), Text(other)];
    assert items[1..] == [Text(other)];
    assert JoinWithCommas(items[1..]) == Ok(other);
    assert ToJsString(items[0]) == Ok(IntText(n));
    assert ToJsString(List(items)) == Ok(IntText(n) + "," + other);
    assert IntText(n) + "," + other == IntText(n) + ("," + other);
    ParseIntText(n, "," + other);
  }
}

=== FILE: int_parse.dfy ===
/**
  `parseInt(text, 10)`: skip leading white space, read an optional sign, then
  the longest run of decimal digits; no digits at all gives NaN, modelled as
  None. The numeric result is an unbounded integer.
*/
module IntParse {
  import opened Optional

  /** The characters `parseInt` skips before the number: white space and line terminators. */
  predicate IsJsWhiteSpace(c: char) {
    // tab, line feed, vertical tab, form feed, carriage return, space
    || c == '\t' || c == '\n' || c == '\U{000B}' || c == '\U{000C}' || c == '\r' || c == ' '
    // no-break space, Ogham space mark, the spaces U+2000 to U+200A
    || c == '\U{00A0}' || c == '\U{1680}' || ('\U{2000}' <= c <= '\U{200A}')
    // line and paragraph separators, narrow no-break, medium mathematical and ideographic spaces
    || c == '\U{2028}' || c == '\U{2029}' || c == '\U{202F}' || c == '\U{205F}' || c == '\U{3000}'
    // byte order mark
    || c == '\U{FEFF}'
  }

  predicate AllWhiteSpace(w: string) {
    forall i :: 0 <= i < |w| ==> IsJsWhiteSpace(w[i])
  }

  predicate IsDigit(c: char) {
    '0' <= c <= '9'
  }

  function DigitValue(c: char): nat
    requires IsDigit(c)
  {
    c as int - '0' as int
  }

  /** `s` without its leading white space. */
  function TrimStart(s: string): (r: string)
    ensures |r| <= |s| && r == s[|s| - |r|..]
    ensures AllWhiteSpace(s[..|s| - |r|])
    ensures |r| == 0 || !IsJsWhiteSpace(r[0])
    decreases |s|
  {
    if |s| > 0 && IsJsWhiteSpace(s[0]) then TrimStart(s[1..]) else s
  }

  /** The longest prefix of `s` made of decimal digits. */
  function DigitPrefix(s: string): (r: string)
    ensures |r| <= |s| && r == s[..|r|]
    ensures forall i :: 0 <= i < |r| ==> IsDigit(r[i])
    ensures |r| < |s| ==> !IsDigit(s[|r|])
    decreases |s|
  {
    if |s| > 0 && IsDigit(s[0]) then [s[0]] + DigitPrefix(s[1..]) else []
  }

  /** The value of a string of decimal digits, most significant first. */
  function DigitsValue(ds: string): nat
    requires forall i :: 0 <= i < |ds| ==> IsDigit(ds[i])
    decreases |ds|
  {
    if |ds| == 0 then 0 else DigitsValue(ds[..|ds| - 1]) * 10 + DigitValue(ds[|ds| - 1])
  }

  /** `parseInt(s, 10)`, with NaN as None. */
  function ParseInt(s: string): (r: Option<int>)
    ensures r.None? <==> |DigitPrefix(Unsigned(TrimStart(s)))| == 0
  {
    var t := TrimStart(s);
    var digits := DigitPrefix(Unsigned(t));
    if |digits| == 0 then None else Some(WithSign(t, DigitsValue(digits)))
  }

  /** `magnitude`, negated when the trimmed text `t` starts with `-`. */
  function WithSign(t: string, magnitude: nat): int {
    if |t| > 0 && t[0] == '-' then 0 - magnitude else magnitude
  }

  /** `t` without a leading `+` or `-`. */
  function Unsigned(t: string): string {
    if |t| > 0 && (t[0] == '-' || t[0] == '+') then t[1..] else t
  }

  // ---------------------------------------------------------------------------
  // Decimal text of an integer, the partner of ParseInt.
  // ---------------------------------------------------------------------------

  function DigitChar(d: nat): (c: char)
    requires d < 10
    ensures IsDigit(c) && DigitValue(c) == d
  {
    ('0' as int + d) as char
  }

  /** The shortest decimal digits of `n`. */
  function NatText(n: nat): (r: string)
    ensures |r| > 0
    ensures forall i :: 0 <= i < |r| ==> IsDigit(r[i])
    decreases n
  {
    if n < 10 then [DigitChar(n)] else NatText(n / 10) + [DigitChar(n % 10)]
  }

  /** The decimal text of `n`, with a `-` in front when it is negative. */
  function IntText(n: int): string {
    if n < 0 then ['-'] + NatText(-n) else NatText(n)
  }

  /** Ten to the `k`. */
  function Pow10(k: nat): (r: nat)
    ensures r >= 1
  {
    if k == 0 then 1 else 10 * Pow10(k - 1)
  }

  /** `1` followed by `k` zeros is the decimal text of ten to the `k`. */
  lemma {:induction false} OneAndZeros(s: string, k: nat, n: int)
    requires |s| == k + 1 && s[0] == '1' && forall i :: 1 <= i < |s| ==> s[i] == '0'
    requires n == Pow10(k)
    ensures s == IntText(n)
    decreases k
  {
    if k > 0 {
      OneAndZeros(s[..k], k - 1, Pow10(k - 1));
      assert n / 10 == Pow10(k - 1) && n % 10 == 0;
      assert NatText(n) == NatText(n / 10) + [DigitChar(0)];
      assert s == s[..k] + [s[k]];
    }
  }

  lemma {:induction false} NatTextValue(n: nat)
    ensures DigitsValue(NatText(n)) == n
    decreases n
  {
    if n >= 10 {
      NatTextValue(n / 10);
      var r := NatText(n);
      assert r[..|r| - 1] == NatText(n / 10);
    }
  }

  lemma {:induction false} DigitPrefixOfDigits(ds: string, rest: string)
    requires forall i :: 0 <= i < |ds| ==> IsDigit(ds[i])
    requires |rest| == 0 || !IsDigit(rest[0])
    ensures DigitPrefix(ds + rest) == ds
    decreases |ds|
  {
    if |ds| > 0 {
      DigitPrefixOfDigits(ds[1..], rest);
      assert (ds + rest)[1..] == ds[1..] + rest;
    } else {
      assert ds + rest == rest;
    }
  }

  /** Unsigned digits followed by a non-digit read as their value. */
  lemma ParseUnsignedDigits(ds: string, rest: string)
    requires |ds| > 0 && forall i :: 0 <= i < |ds| ==> IsDigit(ds[i])
    requires |rest| == 0 || !IsDigit(rest[0])
    ensures ParseInt(ds + rest) == Some(DigitsValue(ds))
  {
    var s := ds + rest;
    assert s[0] == ds[0] && IsDigit(s[0]);
    assert !IsJsWhiteSpace(s[0]);
    assert TrimStart(s) == s;
    assert Unsigned(s) == s;
    DigitPrefixOfDigits(ds, rest);
    assert DigitPrefix(Unsigned(TrimStart(s))) == ds;
  }

  /** A minus sign, digits and a non-digit read as the negated value. */
  lemma ParseNegativeDigits(s: string, ds: string, rest: string)
    requires |ds| > 0 && forall i :: 0 <= i < |ds| ==> IsDigit(ds[i])
    requires |rest| == 0 || !IsDigit(rest[0])
    requires s == ['-'] + (ds + rest)
    ensures ParseInt(s) == Some(0 - DigitsValue(ds))
  {
    assert s[0] == '-';
    assert !IsJsWhiteSpace(s[0]);
    assert TrimStart(s) == s;
    assert s[1..] == ds + rest;
    assert Unsigned(s) == ds + rest;
    DigitPrefixOfDigits(ds, rest);
    assert DigitPrefix(Unsigned(TrimStart(s))) == ds;
    assert WithSign(s, DigitsValue(ds)) == 0 - DigitsValue(ds);
  }

  /** A plus sign, digits and a non-digit read as the value. */
  lemma ParsePlusDigits(s: string, ds: string, rest: string)
    requires |ds| > 0 && forall i :: 0 <= i < |ds| ==> IsDigit(ds[i])
    requires |rest| == 0 || !IsDigit(rest[0])
    requires s == ['+'] + (ds + rest)
    ensures ParseInt(s) == Some(DigitsValue(ds))
  {
    assert s[0] == '+';
    assert !IsJsWhiteSpace(s[0]);
    assert TrimStart(s) == s;
    assert s[1..] == ds + rest;
    assert Unsigned(s) == ds + rest;
    DigitPrefixOfDigits(ds, rest);
    assert DigitPrefix(Unsigned(TrimStart(s))) == ds;
  }

  /**
    Any text of the shape white space, optional sign, digits, non-digit reads
    as the digits' value with that sign, leading zeros and `+` included:
    `" +010"` reads as 10, `"007abc"` as 7.
  */
  lemma ParseSignedDigits(ws: string, sign: string, ds: string, rest: string)
    requires AllWhiteSpace(ws)
    requires sign == "" || sign == "+" || sign == "-"
    requires |ds| > 0 && forall i :: 0 <= i < |ds| ==> IsDigit(ds[i])
    requires |rest| == 0 || !IsDigit(rest[0])
    ensures ParseInt(ws + sign + ds + rest)
      == Some(if sign == "-" then 0 - DigitsValue(ds) else DigitsValue(ds))
  {
    var t := sign + (ds + rest);
    Regroup(ws, sign, ds, rest);
    ParseIntSkipsWhiteSpace(ws, t);
    if sign == "" {
      assert t == ds + rest;
      ParseUnsignedDigits(ds, rest);
    } else if sign == "+" {
      ParsePlusDigits(t, ds, rest);
    } else {
      ParseNegativeDigits(t, ds, rest);
    }
  }

  lemma Regroup(a: string, b: string, c: string, d: string)
    ensures a + b + c + d == a + (b + (c + d))
  {
  }

  /** `?limit=+010` asks for 10 records. */
  lemma PaddedPlusExample(s: string)
    requires s == "+010"
    ensures ParseInt(s) == Some(10)
  {
    var ds := s[1..];
    assert s == ['+'] + (ds + "");
    PaddedTenValue(ds);
    ParsePlusDigits(s, ds, "");
  }

  lemma PaddedTenValue(ds: string)
    requires ds == "010"
    ensures forall i :: 0 <= i < |ds| ==> IsDigit(ds[i])
    ensures DigitsValue(ds) == 10
  {
    var one, zero := ds[..2], ds[..1];
    assert one[..1] == zero && zero[..0] == [];
    assert DigitsValue(zero) == 0;
    assert DigitsValue(one) == 1;
    assert DigitsValue(ds) == DigitsValue(one) * 10 + DigitValue(ds[2]);
  }

  /**
    Reading back the decimal text of any integer gives the integer, whatever
    follows the digits, as long as it does not start with another digit
    (`"10abc"` and `"2,3"` read as 10 and 2).
  */
  lemma ParseIntText(n: int, rest: string)
    requires |rest| == 0 || !IsDigit(rest[0])
    ensures ParseInt(IntText(n) + rest) == Some(n)
  {
    if n < 0 {
      ParseNegativeText(n, rest);
    } else {
      NatTextValue(n);
      ParseUnsignedDigits(NatText(n), rest);
    }
  }

  /** The decimal text of an integer, on its own, reads back as that integer. */
  lemma ParseIntOfText(s: string, n: int)
    requires s == IntText(n)
    ensures ParseInt(s) == Some(n)
  {
    ParseIntText(n, "");
    assert IntText(n) + "" == s;
  }

  lemma ParseNegativeText(n: int, rest: string)
    requires n < 0
    requires |rest| == 0 || !IsDigit(rest[0])
    ensures ParseInt(IntText(n) + rest) == Some(n)
  {
    var m: nat := -n;
    var ds := NatText(m);
    assert ParseInt(IntText(n) + rest) == Some(0 - DigitsValue(ds)) by {
      var s := IntText(n) + rest;
      assert s == ['-'] + (ds + rest) by {
        assert IntText(n) == ['-'] + ds;
      }
      NegatedValue(ds, m);
      ParseNegativeDigits(s, ds, rest);
    }
    assert 0 - DigitsValue(ds) == n by {
      NatTextValue(m);
    }
  }

  lemma NegatedValue(ds: string, m: nat)
    requires ds == NatText(m)
    ensures forall i :: 0 <= i < |ds| ==> IsDigit(ds[i])
    ensures |ds| > 0 && 0 - DigitsValue(ds) == 0 - m
  {
    NatTextValue(m);
  }

  /** Leading white space does not change the result. */
  lemma {:induction false} ParseIntSkipsWhiteSpace(ws: string, s: string)
    requires AllWhiteSpace(ws)
    ensures ParseInt(ws + s) == ParseInt(s)
    decreases |ws|
  {
    if |ws| > 0 {
      assert (ws + s)[1..] == ws[1..] + s;
      ParseIntSkipsWhiteSpace(ws[1..], s);
      assert TrimStart(ws + s) == TrimStart(ws[1..] + s);
    } else {
      assert ws + s == s;
    }
  }

  /** Text whose first character after an optional sign is not a digit reads as NaN: `"abc"`, `"-"`, `""`. */
  lemma ParseIntNoDigits(s: string)
    requires |s| == 0 || !IsJsWhiteSpace(s[0])
    requires |Unsigned(s)| == 0 || !IsDigit(Unsigned(s)[0])
    ensures ParseInt(s) == None
  {
  }
}

=== FILE: operator_rewrite.dfy ===
/**
  The operator rewrite applied to the serialised filter text: every match of
  the global regular expression `\b(gt|gte|lt|lte|in)\b` is replaced by itself
  with a `$` in front, turning `{"age":{"gt":"20"}}` into the MongoDB operator
  form `{"age":{"$gt":"20"}}`.

  `ReplaceFrom` follows the regular-expression engine: it scans left to right,
  tries the alternatives in their written order at each position with the two
  word-boundary checks, and resumes after each match. `RewriteTokens` is an
  independent reference definition over the text's maximal runs of word and
  non-word characters; `RewriteIsTokenwise` proves the two agree.
*/
module OperatorRewrite {
  import opened Optional

  /** A word character of a regular expression without the `u` flag: `[A-Za-z0-9_]`. */
  predicate IsWordChar(c: char) {
    ('a' <= c <= 'z') || ('A' <= c <= 'Z') || ('0' <= c <= '9') || c == '_'
  }

  /** Whether position `i` of `s` holds a word character; positions outside the text do not. */
  predicate WordAt(s: string, i: int) {
    0 <= i < |s| && IsWordChar(s[i])
  }

  /** `\b` between positions `i - 1` and `i`. */
  predicate Boundary(s: string, i: int) {
    WordAt(s, i - 1) != WordAt(s, i)
  }

  /** The alternatives of the pattern, in the order the engine tries them. */
  const Alternatives: seq<string> := ["gt", "gte", "lt", "lte", "in"]

  /** The comparison operators the rewrite marks: the alternatives, in any order. */
  predicate IsOperator(t: string) {
    t == "gt" || t == "gte" || t == "lt" || t == "lte" || t == "in"
  }

  /** Alternative `a` followed by `\b` matches at position `p`. */
  predicate AlternativeMatches(s: string, p: nat, a: string) {
    p + |a| <= |s| && s[p..p + |a|] == a && Boundary(s, p + |a|)
  }

  /** Try the alternatives from index `k` on; the end of the first that matches. */
  function TryAlternatives(s: string, p: nat, k: nat): (r: Option<nat>)
    requires k <= |Alternatives|
    ensures r.Some? ==> p < r.value <= |s|
    decreases |Alternatives| - k
  {
    if k == |Alternatives| then None
    else if AlternativeMatches(s, p, Alternatives[k]) then Some(p + |Alternatives[k]|)
    else TryAlternatives(s, p, k + 1)
  }

  /** The end of the regular expression's match starting at `p`, if it matches there. */
  function MatchAt(s: string, p: nat): (r: Option<nat>)
    ensures r.Some? ==> p < r.value <= |s|
  {
    if Boundary(s, p) then TryAlternatives(s, p, 0) else None
  }

  /** `s[p..]` with every match replaced by `$` and the matched text. */
  function ReplaceFrom(s: string, p: nat): string
    requires p <= |s|
    decreases |s| - p
  {
    if p == |s| then []
    else match MatchAt(s, p)
      case Some(q) => ['$'] + s[p..q] + ReplaceFrom(s, q)
      case None => [s[p]] + ReplaceFrom(s, p + 1)
  }

  /** `queryStr.replace(/\b(gt|gte|lt|lte|in)\b/g, match => '$' + match)`. */
  function RewriteOperators(s: string): string {
    ReplaceFrom(s, 0)
  }

  // ---------------------------------------------------------------------------
  // The reference definition: maximal runs of word and non-word characters.
  // ---------------------------------------------------------------------------

  /** The end of the maximal run of characters of the same kind as `s[p]`. */
  function RunEnd(s: string, p: nat): (q: nat)
    requires p < |s|
    ensures p < q <= |s|
    ensures forall i :: p <= i < q ==> IsWordChar(s[i]) == IsWordChar(s[p])
    ensures q < |s| ==> IsWordChar(s[q]) != IsWordChar(s[p])
    decreases |s| - p
  {
    if p + 1 < |s| && IsWordChar(s[p + 1]) == IsWordChar(s[p]) then RunEnd(s, p + 1) else p + 1
  }

  /** The maximal runs of `s[p..]`, left to right. */
  function TokensFrom(s: string, p: nat): seq<string>
    requires p <= |s|
    decreases |s| - p
  {
    if p == |s| then [] else [s[p..RunEnd(s, p)]] + TokensFrom(s, RunEnd(s, p))
  }

  /** The maximal runs of `s`. */
  function Tokens(s: string): seq<string> {
    TokensFrom(s, 0)
  }

  function Concat(ts: seq<string>): string {
    if |ts| == 0 then [] else ts[0] + Concat(ts[1..])
  }

  /** A token that is an operator gains one `$`; every other token is kept. */
  function RewriteToken(t: string): string {
    if IsOperator(t) then ['$'] + t else t
  }

  function RewriteTokens(ts: seq<string>): string {
    if |ts| == 0 then [] else RewriteToken(ts[0]) + RewriteTokens(ts[1..])
  }

  function CountOperators(ts: seq<string>): nat {
    if |ts| == 0 then 0 else (if IsOperator(ts[0]) then 1 else 0) + CountOperators(ts[1..])
  }

  predicate Uniform(t: string) {
    forall i :: 0 <= i < |t| ==> IsWordChar(t[i]) == IsWordChar(t[0])
  }

  predicate AllWord(t: string) {
    forall i :: 0 <= i < |t| ==> IsWordChar(t[i])
  }

  // ---------------------------------------------------------------------------
  // Proofs
  // ---------------------------------------------------------------------------

  lemma AlternativesAreWords()
    ensures forall k :: 0 <= k < |Alternatives| ==> |Alternatives[k]| > 0 && AllWord(Alternatives[k])
  {
    forall k | 0 <= k < |Alternatives|
      ensures |Alternatives[k]| > 0 && AllWord(Alternatives[k])
    {
      var a := Alternatives[k];
      assert a == "gt" || a == "gte" || a == "lt" || a == "lte" || a == "in";
    }
  }

  /** A run of word characters ending at a non-word character (or the end) is the maximal run. */
  lemma RunEndUnique(s: string, p: nat, m: nat)
    requires p < m <= |s|
    requires forall i :: p <= i < m ==> IsWordChar(s[i]) == IsWordChar(s[p])
    requires m < |s| ==> IsWordChar(s[m]) != IsWordChar(s[p])
    ensures m == RunEnd(s, p)
  {
  }

  /** Any split of `s[p..]` into maximal runs is the one `TokensFrom` computes. */
  lemma {:induction false} TokensFromUnique(s: string, p: nat, ts: seq<string>)
    requires p <= |s| && s[p..] == Concat(ts)
    requires forall j :: 0 <= j < |ts| ==> |ts[j]| > 0 && Uniform(ts[j])
    requires forall j :: 0 <= j < |ts| - 1 ==> IsWordChar(ts[j][0]) != IsWordChar(ts[j + 1][0])
    ensures TokensFrom(s, p) == ts
    decreases |ts|
  {
    if |ts| > 0 {
      var n := |ts[0]|;
      var m := p + n;
      assert s[p..] == ts[0] + Concat(ts[1..]);
      assert s[p..m] == ts[0] && s[m..] == Concat(ts[1..]) by {
        assert s[p..] == s[p..m] + s[m..];
      }
      forall i | p <= i < m
        ensures IsWordChar(s[i]) == IsWordChar(s[p])
      {
        assert s[i] == ts[0][i - p] && s[p] == ts[0][0];
      }
      if m < |s| {
        assert |ts| > 1;
        assert s[m] == Concat(ts[1..])[0] == ts[1][0];
        assert s[p] == ts[0][0];
      }
      RunEndUnique(s, p, m);
      TokensFromUnique(s, m, ts[1..]);
    } else {
      assert |s[p..]| == 0;
    }
  }

  /** A word-only alternative that matches at `p` covers exactly the run starting there. */
  lemma AlternativeMatchIsRun(s: string, p: nat, a: string)
    requires p < |s|
    requires |a| > 0 && AllWord(a)
    requires AlternativeMatches(s, p, a)
    ensures IsWordChar(s[p]) && a == s[p..RunEnd(s, p)]
  {
    var m := p + |a|;
    forall i | p <= i < m
      ensures IsWordChar(s[i])
    {
      assert s[i] == s[p..m][i - p];
    }
    assert WordAt(s, m - 1);
    RunEndUnique(s, p, m);
  }

  /** The whole run of word characters starting at `p` matches as an alternative equal to it. */
  lemma RunMatchesAlternative(s: string, p: nat)
    requires p < |s| && IsWordChar(s[p])
    ensures AlternativeMatches(s, p, s[p..RunEnd(s, p)])
  {
    var q := RunEnd(s, p);
    var a := s[p..q];
    assert p + |a| == q && s[p..p + |a|] == a;
    assert WordAt(s, q - 1) && !WordAt(s, q);
    assert Boundary(s, q);
  }

  /** A word-only alternative matches at `p` exactly when it is the whole run starting there. */
  lemma AlternativeMatchesIffRun(s: string, p: nat, a: string)
    requires p < |s|
    requires |a| > 0 && AllWord(a)
    ensures AlternativeMatches(s, p, a) <==> IsWordChar(s[p]) && a == s[p..RunEnd(s, p)]
  {
    if AlternativeMatches(s, p, a) {
      AlternativeMatchIsRun(s, p, a);
    }
    if IsWordChar(s[p]) && a == s[p..RunEnd(s, p)] {
      RunMatchesAlternative(s, p);
    }
  }

  lemma TryAlternativesOnRun(s: string, p: nat, k: nat)
    requires p < |s|
    requires k <= |Alternatives|
    ensures TryAlternatives(s, p, k).Some?
      <==> IsWordChar(s[p]) && s[p..RunEnd(s, p)] in Alternatives[k..]
    ensures TryAlternatives(s, p, k).Some? ==> TryAlternatives(s, p, k).value == RunEnd(s, p)
    decreases |Alternatives| - k
  {
    if k < |Alternatives| {
      AlternativesAreWords();
      AlternativeMatchesIffRun(s, p, Alternatives[k]);
      TryAlternativesOnRun(s, p, k + 1);
      assert Alternatives[k..] == [Alternatives[k]] + Alternatives[k + 1..];
    }
  }

  /** The regular expression matches at `p` exactly when a maximal word run equal to an operator starts there. */
  lemma MatchAtCharacterised(s: string, p: nat)
    requires p < |s|
    ensures MatchAt(s, p).Some?
      <==> (p == 0 || !IsWordChar(s[p - 1])) && IsWordChar(s[p]) && IsOperator(s[p..RunEnd(s, p)])
    ensures MatchAt(s, p).Some? ==> MatchAt(s, p).value == RunEnd(s, p)
  {
    TryAlternativesOnRun(s, p, 0);
    assert Alternatives[0..] == Alternatives;
    assert forall t :: IsOperator(t) <==> t in Alternatives;
  }

  /** Where nothing matches, the scan copies the text unchanged. */
  lemma {:induction false} CopyWithoutMatches(s: string, p: nat, q: nat)
    requires p <= q <= |s|
    requires forall i :: p <= i < q ==> MatchAt(s, i).None?
    ensures ReplaceFrom(s, p) == s[p..q] + ReplaceFrom(s, q)
    decreases q - p
  {
    if p < q {
      var rest := ReplaceFrom(s, q);
      CopyWithoutMatches(s, p + 1, q);
      calc {
        ReplaceFrom(s, p);
        [s[p]] + ReplaceFrom(s, p + 1);
        [s[p]] + (s[p + 1..q] + rest);
        ([s[p]] + s[p + 1..q]) + rest;
        { assert [s[p]] + s[p + 1..q] == s[p..q]; }
        s[p..q] + rest;
      }
    }
  }

  /** A position that starts a maximal run. */
  predicate RunStart(s: string, p: nat) {
    p < |s| && (p == 0 || IsWordChar(s[p - 1]) != IsWordChar(s[p]))
  }

  /** Inside a run there is no word boundary, so the regular expression cannot match there. */
  lemma NoMatchInsideRun(s: string, p: nat)
    requires p < |s|
    ensures forall i :: p < i < RunEnd(s, p) ==> MatchAt(s, i).None?
  {
    var q := RunEnd(s, p);
    forall i | p < i < q
      ensures MatchAt(s, i).None?
    {
      assert IsWordChar(s[i - 1]) == IsWordChar(s[i]);
      assert !Boundary(s, i);
    }
  }

  /** A run that is not an operator occurrence is copied unchanged. */
  lemma CopyUnmatchedRun(s: string, p: nat)
    requires p < |s|
    requires MatchAt(s, p).None?
    ensures ReplaceFrom(s, p) == s[p..RunEnd(s, p)] + ReplaceFrom(s, RunEnd(s, p))
  {
    NoMatchInsideRun(s, p);
    CopyWithoutMatches(s, p, RunEnd(s, p));
  }

  /** Every operator begins with a word character. */
  lemma NonWordIsNotOperator(t: string)
    requires |t| > 0 && !IsWordChar(t[0])
    ensures !IsOperator(t)
  {
  }

  /** Where the regular expression matches, the scan emits `$`, the matched run, and continues after it. */
  lemma ReplaceAtMatch(s: string, p: nat)
    requires p < |s| && MatchAt(s, p).Some?
    ensures MatchAt(s, p).value == RunEnd(s, p)
    ensures ReplaceFrom(s, p) == ['$'] + s[p..RunEnd(s, p)] + ReplaceFrom(s, RunEnd(s, p))
  {
    MatchAtCharacterised(s, p);
  }

  /** From the start of a run, the scan emits the rewritten run and continues after it. */
  lemma ReplaceOneRun(s: string, p: nat)
    requires RunStart(s, p)
    ensures ReplaceFrom(s, p) == RewriteToken(s[p..RunEnd(s, p)]) + ReplaceFrom(s, RunEnd(s, p))
  {
    var q := RunEnd(s, p);
    MatchAtCharacterised(s, p);
    if MatchAt(s, p).Some? {
      ReplaceAtMatch(s, p);
    } else {
      if !IsWordChar(s[p]) {
        assert s[p..q][0] == s[p];
        NonWordIsNotOperator(s[p..q]);
      }
      CopyUnmatchedRun(s, p);
    }
  }

  lemma {:induction false} ReplaceFromIsTokenwise(s: string, p: nat)
    requires p == |s| || RunStart(s, p)
    ensures ReplaceFrom(s, p) == RewriteTokens(TokensFrom(s, p))
    decreases |s| - p
  {
    if p < |s| {
      var q := RunEnd(s, p);
      ReplaceOneRun(s, p);
      ReplaceFromIsTokenwise(s, q);
      var ts := TokensFrom(s, p);
      assert ts[0] == s[p..q] && ts[1..] == TokensFrom(s, q);
    }
  }

  /** The regular-expression replacement rewrites the text run by run. */
  lemma RewriteIsTokenwise(s: string)
    ensures RewriteOperators(s) == RewriteTokens(Tokens(s))
  {
    ReplaceFromIsTokenwise(s, 0);
  }

  /** The runs partition the text: joined back together they give `s[p..]`. */
  lemma {:induction false} TokensFromConcat(s: string, p: nat)
    requires p <= |s|
    ensures Concat(TokensFrom(s, p)) == s[p..]
    decreases |s| - p
  {
    if p < |s| {
      var q := RunEnd(s, p);
      TokensFromConcat(s, q);
      var ts := TokensFrom(s, p);
      assert ts[0] == s[p..q] && ts[1..] == TokensFrom(s, q);
      assert s[p..] == s[p..q] + s[q..];
    }
  }

  /**
    The runs are maximal: each is non-empty and of one kind, and two
    neighbouring runs are of different kinds.
  */
  lemma {:induction false} TokensFromMaximal(s: string, p: nat)
    requires p <= |s|
    ensures forall j :: 0 <= j < |TokensFrom(s, p)| ==>
      |TokensFrom(s, p)[j]| > 0 && Uniform(TokensFrom(s, p)[j])
    ensures forall j :: 0 <= j < |TokensFrom(s, p)| - 1 ==>
      IsWordChar(TokensFrom(s, p)[j][0]) != IsWordChar(TokensFrom(s, p)[j + 1][0])
    decreases |s| - p
  {
    if p < |s| {
      var q := RunEnd(s, p);
      TokensFromMaximal(s, q);
      var ts := TokensFrom(s, p);
      var rest := TokensFrom(s, q);
      assert ts == [s[p..q]] + rest;
      assert ts[0][0] == s[p];
      if 0 < |rest| {
        assert rest[0] == s[q..RunEnd(s, q)];
        assert rest[0][0] == s[q];
      }
      forall j | 0 <= j < |ts|
        ensures |ts[j]| > 0 && Uniform(ts[j])
      {
        if j == 0 {
          forall i | 0 <= i < |ts[0]|
            ensures IsWordChar(ts[0][i]) == IsWordChar(ts[0][0])
          {
            assert ts[0][i] == s[p + i];
          }
        } else {
          assert ts[j] == rest[j - 1];
        }
      }
      forall j | 0 <= j < |ts| - 1
        ensures IsWordChar(ts[j][0]) != IsWordChar(ts[j + 1][0])
      {
        if j > 0 {
          assert ts[j] == rest[j - 1] && ts[j + 1] == rest[j];
        }
      }
    }
  }

  /** `Tokens` splits `s` into its maximal runs of word and non-word characters. */
  lemma TokensAreMaximalRuns(s: string)
    ensures Concat(Tokens(s)) == s
    ensures forall j :: 0 <= j < |Tokens(s)| ==> |Tokens(s)[j]| > 0 && Uniform(Tokens(s)[j])
    ensures forall j :: 0 <= j < |Tokens(s)| - 1 ==>
      IsWordChar(Tokens(s)[j][0]) != IsWordChar(Tokens(s)[j + 1][0])
  {
    TokensFromConcat(s, 0);
    TokensFromMaximal(s, 0);
  }

  /** Rewriting run by run adds one character for every operator run and changes nothing else. */
  lemma {:induction false} RewriteTokensLength(ts: seq<string>)
    ensures |RewriteTokens(ts)| == |Concat(ts)| + CountOperators(ts)
  {
    if |ts| > 0 {
      RewriteTokensLength(ts[1..]);
    }
  }

  /** Runs that are not operators come out as they went in. */
  lemma {:induction false} RewriteTokensIdentity(ts: seq<string>)
    requires CountOperators(ts) == 0
    ensures RewriteTokens(ts) == Concat(ts)
  {
    if |ts| > 0 {
      RewriteTokensIdentity(ts[1..]);
    }
  }

  /** The rewritten text is longer than the original by the number of operator runs it contains. */
  lemma RewriteLength(s: string)
    ensures |RewriteOperators(s)| == |s| + CountOperators(Tokens(s))
  {
    RewriteIsTokenwise(s);
    RewriteTokensLength(Tokens(s));
    TokensAreMaximalRuns(s);
  }

  /** Text without a standalone operator word, such as `main`, `gtx` or `index`, is left alone. */
  lemma RewriteWithoutOperators(s: string)
    requires CountOperators(Tokens(s)) == 0
    ensures RewriteOperators(s) == s
  {
    RewriteIsTokenwise(s);
    RewriteTokensIdentity(Tokens(s));
    TokensAreMaximalRuns(s);
  }

  /** Any split of `s` into maximal runs decides the rewrite. */
  lemma RewriteViaRuns(s: string, ts: seq<string>)
    requires s == Concat(ts)
    requires forall j :: 0 <= j < |ts| ==> |ts[j]| > 0 && Uniform(ts[j])
    requires forall j :: 0 <= j < |ts| - 1 ==> IsWordChar(ts[j][0]) != IsWordChar(ts[j + 1][0])
    ensures RewriteOperators(s) == RewriteTokens(ts)
  {
    TokensFromUnique(s, 0, ts);
    RewriteIsTokenwise(s);
  }

  lemma RewriteTokensCons(t: string, ts: seq<string>)
    ensures RewriteTokens([t] + ts) == RewriteToken(t) + RewriteTokens(ts)
  {
    assert ([t] + ts)[1..] == ts;
  }

  lemma ConcatCons(t: string, ts: seq<string>)
    ensures Concat([t] + ts) == t + Concat(ts)
  {
    assert ([t] + ts)[1..] == ts;
  }

  /** The runs of the serialised bracket filter `field[gt]=bound`. */
  lemma BracketFilterRuns(field: string, bound: string)
    ensures Concat(["{\"", field, "\":{\"", "gt", "\":\"", bound, "\"}}"])
         == "{\"" + field + "\":{\"gt\":\"" + bound + "\"}}"
  {
    var c6 := Concat(["\"}}"]);
    assert c6 == "\"}}" by { ConcatCons("\"}}", []); }
    var c5 := Concat([bound, "\"}}"]);
    assert c5 == bound + c6 by { ConcatCons(bound, ["\"}}"]); }
    var c4 := Concat(["\":\"", bound, "\"}}"]);
    assert c4 == "\":\"" + c5 by { ConcatCons("\":\"", [bound, "\"}}"]); }
    var c3 := Concat(["gt", "\":\"", bound, "\"}}"]);
    assert c3 == "gt" + c4 by { ConcatCons("gt", ["\":\"", bound, "\"}}"]); }
    var c2 := Concat(["\":{\"", "gt", "\":\"", bound, "\"}}"]);
    assert c2 == "\":{\"" + c3 by { ConcatCons("\":{\"", ["gt", "\":\"", bound, "\"}}"]); }
    var c1 := Concat([field, "\":{\"", "gt", "\":\"", bound, "\"}}"]);
    assert c1 == field + c2 by { ConcatCons(field, ["\":{\"", "gt", "\":\"", bound, "\"}}"]); }
    var c0 := Concat(["{\"", field, "\":{\"", "gt", "\":\"", bound, "\"}}"]);
    assert c0 == "{\"" + c1 by { ConcatCons("{\"", [field, "\":{\"", "gt", "\":\"", bound, "\"}}"]); }
  }

  lemma BracketFilterPunctuation()
    ensures RewriteToken("\"}}") == "\"}}"
    ensures RewriteToken("\":\"") == "\":\""
    ensures RewriteToken("\":{\"") == "\":{\""
    ensures RewriteToken("{\"") == "{\""
    ensures RewriteToken("gt") == "$gt"
  {
  }

  /** Run by run, only the `gt` of the serialised bracket filter gains a `$`. */
  lemma BracketFilterRunsRewritten(field: string, bound: string)
    requires !IsOperator(field) && !IsOperator(bound)
    ensures RewriteTokens(["{\"", field, "\":{\"", "gt", "\":\"", bound, "\"}}"])
         == "{\"" + field + "\":{\"$gt\":\"" + bound + "\"}}"
  {
    BracketFilterPunctuation();
    var r6 := RewriteTokens(["\"}}"]);
    assert r6 == "\"}}" by { RewriteTokensCons("\"}}", []); }
    var r5 := RewriteTokens([bound, "\"}}"]);
    assert r5 == bound + r6 by { RewriteTokensCons(bound, ["\"}}"]); }
    var r4 := RewriteTokens(["\":\"", bound, "\"}}"]);
    assert r4 == "\":\"" + r5 by { RewriteTokensCons("\":\"", [bound, "\"}}"]); }
    var r3 := RewriteTokens(["gt", "\":\"", bound, "\"}}"]);
    assert r3 == "$gt" + r4 by { RewriteTokensCons("gt", ["\":\"", bound, "\"}}"]); }
    var r2 := RewriteTokens(["\":{\"", "gt", "\":\"", bound, "\"}}"]);
    assert r2 == "\":{\"" + r3 by { RewriteTokensCons("\":{\"", ["gt", "\":\"", bound, "\"}}"]); }
    var r1 := RewriteTokens([field, "\":{\"", "gt", "\":\"", bound, "\"}}"]);
    assert r1 == field + r2 by { RewriteTokensCons(field, ["\":{\"", "gt", "\":\"", bound, "\"}}"]); }
    var r0 := RewriteTokens(["{\"", field, "\":{\"", "gt", "\":\"", bound, "\"}}"]);
    assert r0 == "{\"" + r1 by { RewriteTokensCons("{\"", [field, "\":{\"", "gt", "\":\"", bound, "\"}}"]); }
  }

  /**
    The query `field[gt]=bound`, which the handler serialises as
    `{"field":{"gt":"bound"}}`, reaches the store as `{"field":{"$gt":"bound"}}`,
    for any field name and bound that are single non-operator words.
  */
  lemma BracketOperatorRewritten(field: string, bound: string)
    requires |field| > 0 && AllWord(field) && !IsOperator(field)
    requires |bound| > 0 && AllWord(bound) && !IsOperator(bound)
    ensures RewriteOperators("{\"" + field + "\":{\"gt\":\"" + bound + "\"}}")
         == "{\"" + field + "\":{\"$gt\":\"" + bound + "\"}}"
  {
    assert Uniform(field) && Uniform(bound);
    BracketFilterRuns(field, bound);
    BracketFilterRunsRewritten(field, bound);
    RewriteViaRuns("{\"" + field + "\":{\"gt\":\"" + bound + "\"}}",
      ["{\"", field, "\":{\"", "gt", "\":\"", bound, "\"}}"]);
  }

  /** Values are rewritten too: a filter value `in-patient` becomes `$in-patient`, since `-` is a word boundary. */
  lemma ValueWordRewritten(s: string)
    requires s == "in-patient"
    ensures RewriteOperators(s) == "$in-patient"
  {
    RewriteViaRuns(s, ["in", "-", "patient"]);
  }

  /** Words that merely contain an operator are not rewritten. */
  lemma ContainingWordsKept(s: string)
    requires s == "main gtx index"
    ensures RewriteOperators(s) == s
  {
    RewriteViaRuns(s, ["main", " ", "gtx", " ", "index"]);
  }
}

=== FILE: optional.dfy ===
/** The Some/None and Ok/Err wrappers the rest of the model builds on. */
module Optional {

  /** A value that may be missing: an absent query parameter, a parse that found no digits. */
  datatype Option<+T> = None | Some(value: T)

  /** The outcome of a step that can fail with a message. */
  datatype Result<+R> = Ok(value: R) | Err(message: string)
}

=== FILE: pagination.dfy ===
/**
  Page and limit defaulting, the index window of a page, and the pagination
  descriptor `{ next?, prev? }` returned to the client.
*/
module Pagination {
  import opened Optional

  const DefaultPage: int := 1
  const DefaultLimit: int := 25

  /**
    `parseInt(x, 10) || fallback`: a parsed number is used unless it is NaN or
    zero, both of which are falsy. Negative numbers are kept.
  */
  function OrDefault(parsed: Option<int>, fallback: int): (r: int)
    ensures parsed.Some? && parsed.value != 0 ==> r == parsed.value
    ensures parsed.None? || parsed.value == 0 ==> r == fallback
  {
    match parsed
    case Some(n) => if n != 0 then n else fallback
    case None => fallback
  }

  /** With a non-zero fallback, the result is never zero, and defaulting it again changes nothing. */
  lemma OrDefaultNonZero(parsed: Option<int>, fallback: int)
    requires fallback != 0
    ensures OrDefault(parsed, fallback) != 0
    ensures OrDefault(Some(OrDefault(parsed, fallback)), fallback) == OrDefault(parsed, fallback)
  {
  }

  /** Index of the first record of `page`: `(page - 1) * limit`. */
  function StartIndex(page: int, limit: int): int {
    (page - 1) * limit
  }

  /** Index just past the last record of `page`: `page * limit`. */
  function EndIndex(page: int, limit: int): int {
    page * limit
  }

  /** A page spans exactly `limit` indices, and each page starts where the previous one ends. */
  lemma WindowWidth(page: int, limit: int)
    ensures EndIndex(page, limit) - StartIndex(page, limit) == limit
    ensures StartIndex(page + 1, limit) == EndIndex(page, limit)
  {
    assert page * limit - (page - 1) * limit == limit;
    assert (page + 1 - 1) * limit == page * limit;
  }

  /** The first page starts at index 0. */
  lemma FirstPageStartsAtZero(limit: int)
    ensures StartIndex(1, limit) == 0
  {
  }

  /** Pages from the first on, with a limit that is not negative, start at index 0 or later. */
  lemma StartIndexNonNegative(page: int, limit: int)
    requires page >= 1 && limit >= 0
    ensures StartIndex(page, limit) >= 0
  {
    assert (page - 1) * limit >= 0;
  }

  /** For a positive limit, a page starts after index 0 exactly when it comes after page 1. */
  lemma StartPositiveIffLaterPage(page: int, limit: int)
    requires limit > 0
    ensures StartIndex(page, limit) > 0 <==> page > 1
  {
    if page > 1 {
      assert (page - 1) * limit >= limit;
    } else {
      assert (page - 1) * limit <= 0;
    }
  }

  /** A link to another page. */
  datatype PageLink = PageLink(page: int, limit: int)

  /** The descriptor: each link is present only when that page exists. */
  datatype Descriptor = Descriptor(next: Option<PageLink>, prev: Option<PageLink>)

  /**
    The pagination descriptor for `page` of size `limit` when the collection
    holds `total` records: `next` when records remain past this page,
    `prev` when this page does not start at the beginning.
  */
  function Describe(page: int, limit: int, total: int): (d: Descriptor)
    ensures d.next.Some? <==> page * limit < total
    ensures d.next.Some? ==> d.next.value == PageLink(page + 1, limit)
    ensures d.prev.Some? <==> (page - 1) * limit > 0
    ensures d.prev.Some? ==> d.prev.value == PageLink(page - 1, limit)
  {
    var startIndex := StartIndex(page, limit);
    var endIndex := EndIndex(page, limit);
    Descriptor(
      if endIndex < total then Some(PageLink(page + 1, limit)) else None,
      if startIndex > 0 then Some(PageLink(page - 1, limit)) else None)
  }

  /** Page 1 never links back. */
  lemma NoPrevOnFirstPage(limit: int, total: int)
    ensures Describe(1, limit, total).prev.None?
  {
  }

  /**
    Following `next` from a page at or after the first lands on a page whose
    `prev` leads back to it.
  */
  lemma NextThenPrev(page: int, limit: int, total: int)
    requires page >= 1 && limit > 0
    requires Describe(page, limit, total).next.Some?
    ensures Describe(page + 1, limit, total).prev == Some(PageLink(page, limit))
  {
    StartPositiveIffLaterPage(page + 1, limit);
  }

  /** Following `prev` lands on a page whose `next` leads back, since `prev` only appears before `total`. */
  lemma PrevThenNext(page: int, limit: int, total: int)
    requires Describe(page, limit, total).prev.Some?
    requires StartIndex(page, limit) < total
    ensures Describe(page - 1, limit, total).next == Some(PageLink(page, limit))
  {
    assert EndIndex(page - 1, limit) == StartIndex(page, limit);
  }

  /** Thirty records, page 2 of 10: links to page 3 and to page 1. */
  lemma ThirtyRecordsPageTwo()
    ensures StartIndex(2, 10) == 10 && EndIndex(2, 10) == 20
    ensures Describe(2, 10, 30) == Descriptor(Some(PageLink(3, 10)), Some(PageLink(1, 10)))
  {
  }
}

=== FILE: query_values.dfy ===
/**
  The request's query object as the Express query parser produces it for the
  hospital listing handler: every parameter is a string, an array (the key
  was repeated) or a nested object (bracket syntax such as `age[gt]=20`).
*/
module QueryValues {
  import opened Optional
  import opened FieldLists

  datatype QueryValue =
    | Text(text: string)
    | List(items: seq<QueryValue>)
    | Object(fields: map<string, QueryValue>)

  /** `req.query`: parameter names to values. */
  type Query = map<string, QueryValue>

  /** The parameter `key`, or None where JavaScript would read `undefined`. */
  function Lookup(q: Query, key: string): (r: Option<QueryValue>)
    ensures r.Some? <==> key in q
    ensures r.Some? ==> r.value == q[key]
  {
    if key in q then Some(q[key]) else None
  }

  /**
    JavaScript truthiness of a parameter: `undefined` and the empty string
    are falsy; every other string, every array and every object is truthy.
  */
  predicate Truthy(v: Option<QueryValue>) {
    match v
    case None => false
    case Some(Text(s)) => s != ""
    case Some(_) => true
  }

  /** The `message` of the error `String()` throws on an object whose own `toString` is not a function. */
  const ConversionError: string := "Cannot convert object to primitive value"

  /**
    Whether `String(v)` throws. The query parser lets bracket syntax set any
    key, `toString` included (`?page[toString]=x`); such an object's own
    string shadows the inherited method, its inherited `valueOf` returns the
    object itself, and so no primitive is found. An array throws when one of
    its elements does.
  */
  predicate ConversionThrows(v: QueryValue)
    decreases v
  {
    match v
    case Text(_) => false
    case List(items) => exists i :: 0 <= i < |items| && ConversionThrows(items[i])
    case Object(fields) => "toString" in fields
  }

  /**
    `String(v)`: a string is itself, an array joins its elements' strings
    with commas, an object prints as `[object Object]` unless it carries its
    own `toString`, which makes the conversion throw.
  */
  function ToJsString(v: QueryValue): (r: Result<string>)
    ensures r.Err? <==> ConversionThrows(v)
    ensures r.Err? ==> r.message == ConversionError
    ensures v.Text? ==> r == Ok(v.text)
    decreases v, 1
  {
    match v
    case Text(s) => Ok(s)
    case List(items) => JoinWithCommas(items)
    case Object(fields) => if "toString" in fields then Err(ConversionError) else Ok("[object Object]")
  }

  /**
    The element strings of an array, separated by `,` (`Array.prototype.join`
    with its default separator); the first element whose conversion throws
    ends the join.
  */
  function JoinWithCommas(items: seq<QueryValue>): (r: Result<string>)
    ensures r.Err? <==> exists i :: 0 <= i < |items| && ConversionThrows(items[i])
    ensures r.Err? ==> r.message == ConversionError
    decreases items, 0
  {
    if |items| == 0 then Ok("")
    else
      match ToJsString(items[0])
      case Err(e) => Err(e)
      case Ok(first) =>
        if |items| == 1 then Ok(first)
        else
          match JoinWithCommas(items[1..])
          case Err(e) =>
            assert ConversionThrows(items[1..][SomeThrowing(items[1..])]);
            Err(e)
          case Ok(rest) =>
            assert forall i :: 1 <= i < |items| ==> items[i] == items[1..][i - 1];
            Ok(first + "," + rest)
  }

  /** An index of an element whose conversion throws, when there is one. */
  ghost function SomeThrowing(items: seq<QueryValue>): (i: nat)
    requires exists i :: 0 <= i < |items| && ConversionThrows(items[i])
    ensures i < |items| && ConversionThrows(items[i])
  {
    var i :| 0 <= i < |items| && ConversionThrows(items[i]); i
  }

  /** The strings of the elements, in order, when none of them throws. */
  function ElementStrings(items: seq<QueryValue>): (r: seq<string>)
    requires forall i :: 0 <= i < |items| ==> !ConversionThrows(items[i])
    ensures |r| == |items|
    ensures forall i :: 0 <= i < |items| ==> ToJsString(items[i]) == Ok(r[i])
  {
    seq(|items|, i requires 0 <= i < |items| => ToJsString(items[i]).value)
  }

  /** Converting an array whose elements all convert is `join(',')` over their strings. */
  lemma {:induction false} JoinWithCommasIsJoin(items: seq<QueryValue>)
    requires |items| >= 1
    requires forall i :: 0 <= i < |items| ==> !ConversionThrows(items[i])
    ensures JoinWithCommas(items) == Ok(Join(ElementStrings(items), ','))
    decreases |items|
  {
    if |items| > 1 {
      var first, tail := ToJsString(items[0]).value, items[1..];
      var rest := Join(ElementStrings(tail), ',');
      assert JoinWithCommas(tail) == Ok(rest) by {
        assert forall i :: 0 <= i < |tail| ==> tail[i] == items[i + 1];
        JoinWithCommasIsJoin(tail);
      }
      assert Join(ElementStrings(items), ',') == first + "," + rest by {
        assert ElementStrings(items) == [first] + ElementStrings(tail);
        JoinCons(first, ElementStrings(tail), ',');
      }
    }
  }

  /**
    `?page[toString]=x`: an object with its own `toString` throws on
    conversion, directly or as an array's element, while one without it
    prints as `[object Object]`.
  */
  lemma ConversionExamples(s: string, rest: map<string, QueryValue>)
    requires "toString" !in rest
    ensures ToJsString(Object(map["toString" := Text(s)])) == Err(ConversionError)
    ensures ToJsString(List([Text(s), Object(map["toString" := Text(s)])])) == Err(ConversionError)
    ensures ToJsString(Object(rest)) == Ok("[object Object]")
  {
    var items := [Text(s), Object(map["toString" := Text(s)])];
    assert ConversionThrows(items[1]);
  }

  /**
    Truthiness belongs to the value, not to its string: an absent parameter
    and the empty string are falsy, every other string is truthy, and so is
    every array or object, even an empty array whose string is empty.
  */
  lemma TruthyCases(s: string, v: QueryValue)
    ensures !Truthy(None)
    ensures Truthy(Some(Text(s))) <==> |s| > 0
    ensures !v.Text? ==> Truthy(Some(v))
    ensures Truthy(Some(List([]))) && ToJsString(List([])) == Ok("")
  {
  }
}

=== FILE: reserved_keys.dfy ===
/**
  Building the filter object: a shallow copy of the query from which the four
  parameters that configure projection, ordering and paging are deleted.
*/
module ReservedKeys {
  import opened QueryValues

  /** The parameters deleted from the filter, in the order the handler deletes them. */
  const ReservedNames: seq<string> := ["select", "sort", "page", "limit"]

  predicate IsReserved(key: string) {
    key in ReservedNames
  }

  /** The four names are reserved; the length bound lets a proof rule out names such as `age` cheaply. */
  lemma ReservedNamesFacts(key: string)
    ensures IsReserved("select") && IsReserved("sort") && IsReserved("page") && IsReserved("limit")
    ensures IsReserved(key) ==> 4 <= |key| <= 6
  {
    assert ReservedNames[0] == "select" && ReservedNames[1] == "sort";
    assert ReservedNames[2] == "page" && ReservedNames[3] == "limit";
  }

  /** Delete the reserved names one after another from `q`, as the `forEach` over them does. */
  function DeleteAll(q: Query, names: seq<string>): (r: Query)
    ensures forall k :: k in r <==> k in q && k !in names
    ensures forall k :: k in r ==> r[k] == q[k]
  {
    if |names| == 0 then q
    else DeleteAll(q - {names[0]}, names[1..])
  }

  /** The filter: `{ ...req.query }` with every reserved parameter deleted. */
  function RemoveReserved(q: Query): (r: Query)
    ensures forall k :: k in r ==> !IsReserved(k)
    ensures forall k :: k in q && !IsReserved(k) ==> k in r && r[k] == q[k]
    ensures r.Keys <= q.Keys
  {
    DeleteAll(q, ReservedNames)
  }

  /** Filtering twice leaves the filter as it was. */
  lemma RemoveReservedIdempotent(q: Query)
    ensures RemoveReserved(RemoveReserved(q)) == RemoveReserved(q)
  {
  }

  /** The filter is exactly the query restricted to the non-reserved names. */
  lemma RemoveReservedIsRestriction(q: Query)
    ensures RemoveReserved(q) == map k | k in q && !IsReserved(k) :: q[k]
  {
  }

  /** `?name=A&page=2&sort=-name` filters on `name` alone. */
  lemma RemoveReservedExample(v: QueryValue, p: QueryValue, s: QueryValue)
    ensures RemoveReserved(map["name" := v, "page" := p, "sort" := s]) == map["name" := v]
  {
  }
}
